=== FILE: README.md ===
# EventFlow backend in Dafny

EventFlow lets a group plan an event: the owner creates it, participants
build an agenda of items, vote on them and show up as "active" while they
have the event open. The backend is a set of Convex functions over five
tables: users, events, participants, agendaItems and votes. Each Convex
`mutation` runs as one transaction, and each `query` is a read.

This project models that backend as an immutable `Schema.Store`: one finite
map per table, keyed by document id, plus the counter `nextId` that issues
fresh ids.

- Every checked mutation is a pure function from a store to `Outcome<...>`.
  The one exception is the unchecked `createAgendaItem` in convex/events.ts.
  It cannot throw, so `Events.CreateAgendaItem` returns the new store and id
  directly.
  - `Ok` carries the new store.
  - `Err` carries the error the handler throws. Because a Convex mutation that
    throws rolls back, `Err` carries no store at all.
- Every query is a pure projection of the store.
- The caller's verified identity is an `Option<string>` subject.
- `Date.now()` and `new Date().toISOString()` are parameters.
- `.unique()` is modelled as it behaves:
  - no match is `null`;
  - one match is that document;
  - several matches throw (`NotUnique`).

The modules follow the source files:

| module | models |
|---|---|
| `Schema` | the tables, enums, index lookups and store invariants of convex/schema.ts |
| `Access` | the identity → user → participant resolution every handler repeats |
| `Agendas` | the agenda mutations of convex/agendas.ts and the `order` invariant |
| `Votes` | the vote toggle shared by convex/agendas.ts and convex/events.ts, and its ledger |
| `Events` | convex/events.ts, including its unauthenticated `createAgendaItem` |
| `Participants` | convex/participants.ts |
| `Users` | convex/users.ts |
| `Gantt` | the start-offset arithmetic of the Gantt agenda view |
| `Calendar` | the time parsing, hour range, slots and legend of the calendar view |

The store invariants are:

- `Schema.Fresh`: every id in use is below `nextId`.
- `Schema.ClerkIdKey`, `Schema.ParticipantKey` and `Schema.VoteKey`: the
  lookups the code runs with `.unique()` find at most one row.
- `Schema.VoteLedger`: each item's `votes` counter equals its number of vote
  rows.
- `Agendas.OrdersContiguous`: an event's `order` values are exactly 0..n-1.

The model proves these preservation results:

- `Fresh`:
  - the vote toggle when its `eventId` was issued (`Votes.VotePreservesFresh`);
  - `Events.CreateEvent`, by its contract;
  - `Agendas.InsertAgendaItem` when its event id was issued, by its contract.
- `ClerkIdKey`: `createUser` (`Users.CreateUserPreservesKey`).
- `ParticipantKey`: `addParticipant`, `createEvent` and `updateParticipantRole`
  (`Participants.AddParticipantPreservesKey`, `Events.CreateEventPreservesKey`,
  `Participants.UpdateParticipantRolePreservesKey`).
- `VoteKey`: the vote toggle (`Votes.VotePreservesVoteKey`).
- `VoteLedger`:
  - the vote toggle, one call or any sequence (`Votes.VotePreservesLedger`,
    `Votes.VoteAllPreservesLedger`);
  - `createAgendaItem` (`Agendas.CreateAgendaItemPreservesLedger`);
  - `deleteAgendaItem` (`Agendas.DeleteAgendaItemPreservesLedger`);
  - `deleteEvent` (`Events.DeleteEventPreservesLedger`).
- `OrdersContiguous`:
  - `createAgendaItem` (`Agendas.CreateKeepsContiguity`);
  - `updateAgendaItem` (`Agendas.UpdateKeepsContiguity`);
  - a reorder by a permutation (`Agendas.ReorderPermutationIsContiguous`);
  - `deleteAgendaItem` of the last item only (`Agendas.DeleteContiguousIffLast`).

Operations not named for an invariant are not claimed to keep it. The model
also proves, as lemmas, the places where the code lets an invariant break.

The code has these gaps, and the model keeps them:

- `updateEvent` has no owner check (`Events.NonOwnerCanUpdateEvent`).
- `deleteEvent` has no owner check. `Events.DeleteEvent` takes no identity,
  and its contract says it succeeds on every existing event.
- `getEvents` and `getEvent` have no participant check. `Events.GetEvent` and
  `Events.GetEvents` take no identity.
- `updateAgendaItem`, `deleteAgendaItem` and `reorderAgendaItems` have no
  participant check. Their models take no identity, and their contracts say
  they succeed whenever the ids exist.
- `reorderAgendaItems` does not validate its id list
  (`Agendas.ReorderTouchesForeignItems`, `Agendas.PartialReorderBreaksContiguity`).
- Voting needs only a user document, not a participant row
  (`Votes.NonParticipantCanVote`).
- `updatePresence` stamps whatever `userId` it is given.
  `Participants.UpdatePresence` takes that `userId` as an argument, not an
  identity.
- The owner can remove or demote their own owner row, so "exactly one owner
  per event" can break (`Participants.OwnerCanRemoveOwnerRow`,
  `Participants.OwnerCanDemoteSelf`).

## Model

| member | source | states |
|---|---|---|
| Schema.ParseStatus | convex/schema.ts:18-22 | a status literal reads back as a status exactly when it is the name of that status, so a status is exactly one of upcoming, draft or completed |
| Schema.ParseTone | convex/schema.ts:24 | a tone literal reads back exactly when it names formal or casual |
| Schema.ParseRole | convex/schema.ts:34-38 | a role literal reads back exactly when it names owner, editor or viewer |
| Schema.ParseItemType | convex/schema.ts:52-57 | an item type literal reads back exactly when it names presentation, discussion, break or activity |
| Schema.Unique | convex/users.ts:12-15 | `.unique()` gives null for no match, the one id for a single match, and throws exactly when more than one row matches |
| Schema.ClerkIdKeyMeansUnique | convex/schema.ts:9-11 | when clerkId is a key of users, the `by_clerk_id` lookup matches at most one user |
| Schema.ParticipantKeyMeansUnique | convex/schema.ts:31-42 | when (userId, eventId) is a key of participants, `by_user_and_event` matches at most one row |
| Schema.VoteKeyMeansUnique | convex/schema.ts:61-67 | when (userId, agendaItemId) is a key of votes, `by_user_and_agenda_item` matches at most one vote |
| Access.ResolveUser | convex/agendas.ts:20-32 | no identity is "Not authenticated"; no user with that clerkId is "User not found"; two such users throw; exactly one such user resolves to that user; success names a user whose clerkId is the subject |
| Access.ResolveUserUnderKey | convex/agendas.ts:25-32 | when clerkId is a key, a subject with a user document always resolves to that user |
| Access.FindParticipant | convex/agendas.ts:34-39 | the `by_user_and_event` lookup is null exactly when the user has no row for the event, throws exactly on two rows, and otherwise names a row of that user and event |
| Agendas.StoredEndTime | convex/agendas.ts:56 | endTime is stored exactly when a non-empty string is supplied |
| Agendas.InsertAgendaItem | convex/agendas.ts:45-61 | the new item takes an unused id, has votes 0 and order equal to the event's existing item count, and nothing else in the store changes |
| Agendas.CreateAgendaItem | convex/agendas.ts:4-63 | succeeds exactly when the caller is authenticated, has a user document and has a participant row of any role in the event; with no row the result is "Not authorized"; success is the insert above and failure writes nothing |
| Agendas.PatchItem | convex/agendas.ts:83-86 | a patch changes exactly the supplied fields; eventId, votes and order never change |
| Agendas.UpdateAgendaItem | convex/agendas.ts:66-87 | patching a missing item throws; otherwise only that item changes, by the patch |
| Agendas.DeleteAgendaItem | convex/agendas.ts:89-105 | removes the item and every vote on it, keeps every other item unchanged (no renumbering) and every other vote; a missing item throws |
| Agendas.PatchOrders | convex/agendas.ts:113-116 | the patch loop succeeds exactly when every listed id exists, and never adds or removes an item |
| Agendas.PatchOrdersFrame | convex/agendas.ts:113-116 | the loop changes only `order`, and only on listed items |
| Agendas.PatchOrdersLastIndex | convex/agendas.ts:113-116 | an id's final order is the index of its last occurrence in the list |
| Agendas.ReorderAgendaItems | convex/agendas.ts:107-118 | `order = i` for the id at position i (its last occurrence); unlisted items are unchanged; only `order` changes; a missing id throws |
| Agendas.CreateKeepsContiguity | convex/agendas.ts:45-60 | if an event's orders are exactly 0..n-1 before a create, they are exactly 0..n after it, with the new item in slot n |
| Agendas.InsertKeepsOrdersDistinct | convex/agendas.ts:45-60 | after a create the event's orders are still pairwise distinct |
| Agendas.CreateLeavesOtherEvents | convex/agendas.ts:50-61 | a create leaves every other event's items and orders as they were |
| Agendas.DeleteContiguousIffLast | convex/agendas.ts:89-105 | on a contiguous event, a delete keeps contiguity exactly when the deleted item held the last slot |
| Agendas.DeleteLastKeepsContiguity | convex/agendas.ts:89-105 | deleting the item in the last slot leaves orders 0..n-2 |
| Agendas.DeleteInnerBreaksContiguity | convex/agendas.ts:89-105 | deleting any other item leaves a gap, because nothing renumbers |
| Agendas.DistinctCard | convex/agendas.ts:113 | a list without repeats names as many ids as it has entries |
| Agendas.ReorderPermutationIsContiguous | convex/agendas.ts:107-118 | when the list is a permutation of the event's items, each item's order is its list index and the orders are exactly 0..n-1 |
| Agendas.ReorderTouchesForeignItems | convex/agendas.ts:107-118 | the `eventId` argument is never consulted: a reorder rewrites the order of another event's item |
| Agendas.PartialReorderBreaksContiguity | convex/agendas.ts:107-118 | a list that omits items can give two items of a contiguous event the same order |
| Agendas.UpdateKeepsContiguity | convex/agendas.ts:83-86 | an update never changes orders, so it keeps contiguity |
| Agendas.DeleteAgendaItemPreservesLedger | convex/agendas.ts:89-105 | deleting an item together with its votes keeps every remaining counter equal to its vote rows |
| Agendas.CreateAgendaItemPreservesLedger | convex/agendas.ts:4-63 | a new item starts with 0 votes and no vote row can name it yet, so the counters stay equal to the vote rows |
| Votes.VoteOnAgendaItem | convex/agendas.ts:120-160 | succeeds exactly when the caller resolves, has at most one vote row on the item and the item exists (the `!` throws otherwise); afterwards the caller has voted exactly when they had not; the counter moves by -1 or +1 to match; removing a vote deletes exactly the caller's row on the item, and adding one inserts exactly one row (caller, item, argument eventId) under a fresh id; other items and the other tables are unchanged; removing a vote spends no id and adding one spends exactly one; with every id below `nextId` (`Fresh`), other users' votes are unchanged too |
| Votes.VotesForRemove | convex/agendas.ts:146-149 | removing vote rows removes exactly them from each item's vote set |
| Votes.VotePreservesLedger | convex/agendas.ts:139-158 | a toggle keeps every item's counter equal to its number of vote rows |
| Votes.VotePreservesFresh | convex/agendas.ts:152-156 | a toggle whose eventId was issued stores only issued ids |
| Votes.VotePreservesVoteKey | convex/agendas.ts:139-156 | a toggle never creates a second vote for one (user, item) pair |
| Votes.VotePreservesReferences | convex/agendas.ts:146-158 | a toggle keeps every vote pointing at an existing item |
| Votes.VoteTwiceFromVoted | convex/agendas.ts:146-158 | un-voting and then voting again restores the items and the caller's voted state |
| Votes.VoteTwiceFromUnvoted | convex/agendas.ts:146-158 | voting and then un-voting restores the whole store, except that one id has been used |
| Votes.VoteTwiceRestores | convex/agendas.ts:120-160 | two toggles in a row succeed and restore the items and the voted state; starting unvoted they restore the store up to the spent id |
| Votes.NonParticipantCanVote | convex/agendas.ts:120-160 | there is no participant check: a user with no row in the item's event can vote |
| Votes.VoteRecordsArgumentEvent | convex/agendas.ts:152-156 | the new vote records the `eventId` argument, whichever event the item belongs to |
| Votes.VoteAllPreservesLedger | convex/agendas.ts:139-158 | any sequence of toggles by any callers keeps the vote ledger |
| Events.CreateEvent | convex/events.ts:4-59 | succeeds exactly when the caller resolves (no identity is "Not authenticated"); inserts the event with ownerId = caller and exactly one participant row (caller, event, owner); the only participant rows added are the new event's, and nothing else changes |
| Events.CreateEventHasOneOwner | convex/events.ts:38-55 | a new event has exactly one owner row, and it belongs to the event's ownerId |
| Events.CreateEventPreservesKey | convex/events.ts:38-55 | creating an event never creates a second row for one (user, event) pair |
| Events.VoterName | convex/events.ts:138 | a voter is shown by name, or as 'Unknown' when their user document is gone |
| Events.ViewItem | convex/events.ts:125-141 | `votedBy` has one entry per vote row on the item, each the voter's name or 'Unknown' |
| Events.ViewEvent | convex/events.ts:143-153 | the view's agenda is exactly the event's items, and `participants` is the number of its participant rows |
| Events.GetEvent | convex/events.ts:110-155 | a missing id is "Event not found"; otherwise the event's view, with no caller check |
| Events.GetEvents | convex/events.ts:61-108 | every event in the store, whoever asks, each as `getEvent` would show it |
| Events.VotedByMatchesCounter | convex/events.ts:125-141 | under the vote ledger each item's `votedBy` has exactly `votes` entries |
| Events.CreateThenGetEvent | convex/events.ts:4-59 | a new event reads back with its owner and title, no agenda and one participant |
| Events.PatchEvent | convex/events.ts:174-177 | an event patch changes exactly the supplied fields; ownerId, createdAt, goals and expectedParticipants never change |
| Events.UpdateEvent | convex/events.ts:157-178 | patching a missing event throws; otherwise only that event changes, by the patch |
| Events.UpdateEventEmptyPatch | convex/events.ts:157-178 | an update that supplies no field leaves the store unchanged |
| Events.UpdateEventIdempotent | convex/events.ts:157-178 | applying the same update twice gives the same store as applying it once |
| Events.NonOwnerCanUpdateEvent | convex/events.ts:174-177 | any caller, owner or not, can update an event |
| Events.DeleteEvent | convex/events.ts:180-215 | the event, its items, its participants and every vote on its items go; every other event, item, participant and vote stays; no row is added or rewritten; a missing event throws |
| Events.DeleteEventPreservesLedger | convex/events.ts:189-200 | the cascade keeps the vote ledger, and keeps every vote pointing at an existing item |
| Events.DeleteEventKeepsMislabelledVotes | convex/events.ts:189-196 | votes are found by item, not by their eventId label, so a vote labelled with the deleted event but cast on another event's item survives |
| Events.CreateAgendaItem | convex/events.ts:217-252 | the duplicate create inserts with order = existing count and votes = 0, with no authentication or participant check |
| Events.UncheckedCreateMakesOrphans | convex/events.ts:217-252 | the duplicate inserts an item even for an event that does not exist |
| Participants.GetCurrentUserAsParticipant | convex/participants.ts:4-30 | null without an identity or without a user document; throws exactly when the user lookup or the row lookup is ambiguous; otherwise returns the caller's one row for the event and the row's document, or null when there is none |
| Participants.AddParticipant | convex/participants.ts:32-87 | throws without identity, for a missing event, or unless the caller holds an owner or editor row; throws when the target's (user, event) lookup is ambiguous; succeeds exactly when the caller resolves to one owner or editor row of an existing event and the target has at most one row; an existing target row is left as it is; otherwise exactly one row (target, event, role) is inserted, and no owner row is ever created |
| Participants.AddParticipantIdempotent | convex/participants.ts:69-85 | adding the same participant twice equals adding them once |
| Participants.AddParticipantPreservesKey | convex/participants.ts:69-85 | an add never creates a second row for one (user, event) pair |
| Participants.RemoveParticipant | convex/participants.ts:89-124 | succeeds exactly when the caller is the event's ownerId; then the named row is deleted if present and nothing else changes |
| Participants.RemoveParticipantCrossesEvents | convex/participants.ts:109-122 | an event's owner can delete a row that belongs to another event |
| Participants.OwnerCanRemoveOwnerRow | convex/participants.ts:114-122 | the owner can delete their own owner row, leaving the event with no owner row |
| Participants.UpdatePresence | convex/participants.ts:126-143 | sets lastSeen = now on the (user, event) row if there is one; otherwise nothing changes; throws only on an ambiguous lookup |
| Participants.GetActiveParticipants | convex/participants.ts:145-169 | exactly the event's rows with lastSeen > now - 300000 (strictly, and never when unset) whose user exists, each joined with its user; the window test is the predicate `IsActive` |
| Participants.GetParticipantsByEvent | convex/participants.ts:171-193 | exactly the event's rows, each joined with its user or null |
| Participants.ActiveAreListed | convex/participants.ts:150-167 | the active participants are a subset of the listed participants, shown the same way |
| Participants.HeartbeatKeepsActive | convex/participants.ts:139-155 | after a heartbeat at t, a row whose user exists is active exactly for now < t + 5 minutes |
| Participants.PresenceScenario | convex/participants.ts:150-154 | seen six minutes ago is inactive; seen one minute ago is active; seen exactly five minutes ago or never is inactive |
| Participants.UpdateParticipantRole | convex/participants.ts:195-234 | throws without identity, for a missing row or event, or unless the caller is the row's event's ownerId; otherwise sets only the role, to editor or viewer |
| Participants.OwnerCanDemoteSelf | convex/participants.ts:218-232 | the owner can demote their own owner row, leaving the event with no owner row |
| Participants.UpdateParticipantRolePreservesKey | convex/participants.ts:218-232 | a role change never creates a second row for one (user, event) pair |
| Participants.CreateEventThenCurrentParticipant | convex/participants.ts:4-30 | right after creating an event, the caller reads back as that event's owner participant |
| Users.CreateUser | convex/users.ts:4-33 | an unseen clerkId inserts exactly one user at a fresh id; an existing one overwrites name, email and avatar in place and returns the same id, keeping clerkId; throws only on an ambiguous lookup |
| Users.CreateUserMakesSoleUser | convex/users.ts:12-31 | after the upsert the clerkId names exactly the returned user |
| Users.CreateUserPreservesKey | convex/users.ts:12-31 | the upsert never creates a second user with the same clerkId |
| Users.CreateUserRefreshes | convex/users.ts:17-23 | with one user for the clerkId, the upsert refreshes that user's profile and returns its id |
| Users.CreateUserIdempotent | convex/users.ts:12-31 | two identical calls leave the same store as one and return the same id |
| Users.CreateUserThenResolve | convex/users.ts:12-31 | after the upsert, a caller with that subject resolves to the returned user |
| Users.FindUserByEmail | convex/users.ts:35-50 | null when no user has the email; the one user and its id when exactly one does; throws when several do |
| Users.SharedEmailBreaksLookup | convex/users.ts:40-43 | two users with one email make the lookup throw |
| Users.SignInCanShareEmail | convex/users.ts:12-31 | signing in under a new clerkId with an email another user holds reaches that state |
| Gantt.TotalDurationBounds | src/features/dashboard/event/agenda/gantt-view.tsx:28 | the `reduce` total, a left fold from 0, is non-negative when no duration is negative, and then at least every single item's duration; the fold itself is the function `TotalDuration` |
| Gantt.TotalDurationAppend | src/features/dashboard/event/agenda/gantt-view.tsx:28 | the total duration of a concatenation is the sum of the totals |
| Gantt.PrefixTotalsMonotone | src/features/dashboard/event/agenda/gantt-view.tsx:31-35 | with no negative duration, a longer prefix never has a smaller total |
| Gantt.PrefixStep | src/features/dashboard/event/agenda/gantt-view.tsx:33-34 | extending a prefix by one item adds that item's duration |
| Gantt.WithStartPositions | src/features/dashboard/event/agenda/gantt-view.tsx:31-40 | the output keeps length, order and every item, and item i starts at the total duration of the items before it |
| Gantt.LayoutTiles | src/features/dashboard/event/agenda/gantt-view.tsx:28-40 | the first bar starts at 0, each starts where the previous ended, and the last ends at the total duration |
| Gantt.LayoutMonotone | src/features/dashboard/event/agenda/gantt-view.tsx:31-40 | with no negative duration the start offsets never decrease |
| Calendar.Split | src/features/dashboard/event/agenda/calendar-view.tsx:26 | `split(':')` gives at least one piece and no piece contains a colon |
| Calendar.JoinSplit | src/features/dashboard/event/agenda/calendar-view.tsx:26 | joining the pieces with ':' gives back the string |
| Calendar.SplitAtColon | src/features/dashboard/event/agenda/calendar-view.tsx:26 | a colon-free prefix followed by ':' is the first piece |
| Calendar.SplitNoColon | src/features/dashboard/event/agenda/calendar-view.tsx:26 | a colon-free string is its own only piece |
| Calendar.ToNumber | src/features/dashboard/event/agenda/calendar-view.tsx:26 | `Number` of a piece is finite exactly when it is a digit string, the empty string included |
| Calendar.ToNumberNumeral | src/features/dashboard/event/agenda/calendar-view.tsx:26 | `Number` reads every decimal numeral back as its value |
| Calendar.ParseTime | src/features/dashboard/event/agenda/calendar-view.tsx:25-28 | finite exactly when there are at least two pieces and both of the first two are digit strings; then hours * 60 + minutes |
| Calendar.ParseTimeOfFields | src/features/dashboard/event/agenda/calendar-view.tsx:25-28 | "HH:MM" (with or without a ":SS" tail) parses to HH * 60 + MM |
| Calendar.FormattedTimeParses | src/features/dashboard/event/agenda/calendar-view.tsx:25-28 | a two-digit "hh:mm" parses back to h * 60 + m |
| Calendar.ParseTimeEdges | src/features/dashboard/event/agenda/calendar-view.tsx:25-28 | "9" is NaN (no minutes piece), "9:" is 540 (the empty piece is 0), and "9:3x" is NaN |
| Calendar.StartMinutes | src/features/dashboard/event/agenda/calendar-view.tsx:31 | all start times are finite exactly when each one parses, and then each is its item's parsed time |
| Calendar.TimeRange | src/features/dashboard/event/agenda/calendar-view.tsx:31-34 | no finite range for an empty agenda or an unparsable time; otherwise every item lies within [startHour*60, endHour*60], and both bounds are tight to within an hour, i.e. floor of the earliest start and ceil of the latest end; the helpers `EndMinutes`, `MinOf`, `MaxOf`, `FloorDiv` and `CeilDiv` model the `Math.min`, `Math.max`, `Math.floor` and `Math.ceil` steps |
| Calendar.HourSlots | src/features/dashboard/event/agenda/calendar-view.tsx:37-40 | the slots are startHour, startHour+1, ... with length endHour - startHour + 1 clamped at 0, and empty when the range is not finite |
| Calendar.HourSlotsSpan | src/features/dashboard/event/agenda/calendar-view.tsx:37-40 | an hour has a slot exactly when it lies between startHour and endHour |
| Calendar.SlotsCoverAgenda | src/features/dashboard/event/agenda/calendar-view.tsx:31-40 | with no negative duration, the slots run from startHour to endHour and every item's start hour has a slot |
| Calendar.LegendCounts | src/features/dashboard/event/agenda/calendar-view.tsx:170-171 | one count per legend row, in the row order presentation, discussion, activity, break, each being that type's `CountOfType` |
| Calendar.CountOfType | src/features/dashboard/event/agenda/calendar-view.tsx:171 | a legend count is the number of items of that type (the multiplicity of the type's name among the items' type names); so it is 0 exactly when no item has the type, and the whole agenda exactly when every item has it |
| Calendar.LegendAccountsForEveryItem | src/features/dashboard/event/agenda/calendar-view.tsx:170-171 | the four legend counts add up to the number of items |
| Calendar.OneRowMatches | src/features/dashboard/event/agenda/calendar-view.tsx:170 | each item type matches exactly one legend row |
| Calendar.LegendRowPerType | src/features/dashboard/event/agenda/calendar-view.tsx:170 | every item type has a legend row, and the rows are distinct |

## Left out

- The AI assistant is out of scope. This model covers the Convex backend and the two agenda views only.
- React rendering, animation, modals and routing are left out. They hold no logic beyond the view arithmetic modelled above.
- The floating-point view arithmetic is left out: the Gantt `widthPercent` (which is NaN or Infinity when the total duration is 0) and the calendar `top`/`height` pixel values.
- Concurrency and the Convex runtime are left out. Each mutation is one atomic transition, and interleavings are not modelled.
- Query result order is left out. `.order('asc')` sorts by creation time, not by the `order` field, so agendas and participant lists are maps keyed by id.
- Convex's write-time schema validation is not modelled. The code writes two fields the schema does not declare: `lastSeen` on participants (convex/participants.ts:140) and `description` on events (convex/events.ts:161,176). The model carries them as `Participant.lastSeen: Option<int>` and `Event.description: Option<string>`, as if the writes succeed.
- Argument validation by `v.*` validators is not modelled. Arguments arrive already typed: enum values as datatypes, ids as naturals, and editor/viewer as `GrantableRole`.
- Ids are not modelled per table. All tables draw from one `nextId` counter. Ids are only compared for equality, so this changes no behaviour.
- The textual copies of `updateAgendaItem`, `deleteAgendaItem`, `reorderAgendaItems` and `voteOnAgendaItem` in convex/events.ts (lines 254-348) are the same code as in convex/agendas.ts. The same members model them.
- Calendar.ToNumber: JavaScript's `Number` also trims whitespace and accepts signs, decimals, exponents and hex. The model reads every such string as NaN, which matches `Number` only on the empty-or-digits inputs a time field holds. It also reads a digit string exactly at any length, while `Number` rounds values above 2^53. `Calendar.ParseTime` and `Calendar.TimeRange` inherit that difference.
- Votes.VoteTwiceRestores: two toggles cannot restore the store exactly. When the caller had voted, the re-inserted vote gets a new id and records the second call's `eventId`. So in that case the lemma states only that the items and the voted state come back.
- Fractional durations and head counts are left out. The schema declares `duration` and `expectedParticipants` as `v.number()`, and the mutations accept fractions, but the model uses `int`. The item form asks for multiples of 5 (`min="5" step="5"`), but nothing on the server enforces that. A fractional end time would make the calendar's `Math.ceil` in `Calendar.TimeRange` round a fraction of a minute, and the model does not cover that case.
- Gantt.WithStartPositions: JavaScript numbers are doubles. The model uses unbounded integers, which agree with them only while the sums stay below 2^53.


=== FILE: access.dfy ===
/**
  The caller-resolution steps every authenticated handler repeats inline:
  identity -> user document through `by_clerk_id`, and user -> participant row
  through `by_user_and_event`, both with `.unique()`.
*/
module Access {
  import opened Wrappers
  import opened Schema

  /**
    `ctx.auth.getUserIdentity()` followed by the `by_clerk_id` lookup.
    `identity` is the verified subject of the request, if any.
  */
  function ResolveUser(s: Store, identity: Option<string>): (r: Outcome<UserId>)
    ensures identity.None? ==> r == Err(NotAuthenticated)
    ensures identity.Some? ==> (r == Err(UserNotFound) <==> UsersWithClerkId(s, identity.value) == {})
    ensures identity.Some? ==> (r == Err(NotUnique) <==> |UsersWithClerkId(s, identity.value)| > 1)
    ensures identity.Some? && |UsersWithClerkId(s, identity.value)| == 1 ==>
      r.Ok? && UsersWithClerkId(s, identity.value) == {r.value}
    ensures r.Ok? ==> identity.Some? && r.value in s.users && s.users[r.value].clerkId == identity.value
  {
    match identity
    case None => Err(NotAuthenticated)
    case Some(subject) =>
      var found :- Unique(UsersWithClerkId(s, subject));
      if found.None? then Err(UserNotFound) else Ok(found.value)
  }

  /** With clerkId a key, a caller whose subject has a user document resolves to it. */
  lemma ResolveUserUnderKey(s: Store, subject: string, u: UserId)
    requires ClerkIdKey(s)
    requires u in s.users && s.users[u].clerkId == subject
    ensures ResolveUser(s, Some(subject)) == Ok(u)
  {
    assert u in UsersWithClerkId(s, subject);
    ClerkIdKeyMeansUnique(s, subject);
  }

  /** Two stores with the same users table resolve a caller alike. */
  lemma SameUsersResolveAlike(s: Store, s': Store, identity: Option<string>)
    requires s'.users == s.users
    ensures ResolveUser(s', identity) == ResolveUser(s, identity)
  {
    if identity.Some? {
      assert UsersWithClerkId(s', identity.value) == UsersWithClerkId(s, identity.value);
    }
  }

  /** The `by_user_and_event` lookup with `.unique()`. */
  function FindParticipant(s: Store, u: UserId, e: EventId): (r: Outcome<Option<ParticipantId>>)
    ensures r == Ok(None) <==> ParticipantRows(s, u, e) == {}
    ensures r.Ok? && r.value.Some? ==>
      var p := r.value.value;
      p in s.participants && s.participants[p].userId == u && s.participants[p].eventId == e
    ensures r.Err? <==> |ParticipantRows(s, u, e)| > 1
  {
    Unique(ParticipantRows(s, u, e))
  }
}

=== FILE: agendas.dfy ===
/**
  The agenda mutations of convex/agendas.ts: create, update, delete and reorder
  agenda items, and the ordering invariant they do or do not keep.

  `updateAgendaItem`, `deleteAgendaItem` and `reorderAgendaItems` take no
  identity: the handlers never look at the caller. Their textual copies in
  convex/events.ts are the same functions.
*/
module Agendas {
  import opened Wrappers
  import opened Schema
  import opened Access

  /** The arguments of `createAgendaItem` other than `eventId`. */
  datatype NewItem = NewItem(
    title: string,
    duration: int,
    startTime: string,
    endTime: Option<string>,
    description: Option<string>,
    itemType: ItemType)

  /** The optional arguments of `updateAgendaItem`; `None` is "not supplied". */
  datatype ItemPatch = ItemPatch(
    title: Option<string>,
    duration: Option<int>,
    startTime: Option<string>,
    endTime: Option<string>,
    description: Option<string>,
    itemType: Option<ItemType>)

  /** The spread `...(args.endTime ? { endTime } : {})`: the empty string is falsy. */
  function StoredEndTime(endTime: Option<string>): (r: Option<string>)
    ensures r.Some? <==> endTime.Some? && endTime.value != ""
    ensures r.Some? ==> r == endTime
  {
    if endTime.Some? && endTime.value != "" then endTime else None
  }

  /**
    The insert both copies of `createAgendaItem` perform once they decide to:
    a fresh item whose `order` is the number of items the event already has.
  */
  function InsertAgendaItem(s: Store, e: EventId, args: NewItem): (r: (Store, ItemId))
    ensures Fresh(s) ==> r.1 !in s.agendaItems
    ensures Fresh(s) && e < s.nextId ==> Fresh(r.0)
    ensures r.0.agendaItems.Keys == s.agendaItems.Keys + {r.1}
    ensures r.0.agendaItems[r.1] == AgendaItem(e, args.title, args.duration, args.startTime,
      StoredEndTime(args.endTime), args.description, 0, args.itemType, |ItemsOf(s, e)|)
    ensures forall i :: i in s.agendaItems && i != r.1 ==> r.0.agendaItems[i] == s.agendaItems[i]
    ensures r.0.(agendaItems := s.agendaItems, nextId := s.nextId) == s
  {
    var id := s.nextId;
    var item := AgendaItem(e, args.title, args.duration, args.startTime,
      StoredEndTime(args.endTime), args.description, 0, args.itemType, |ItemsOf(s, e)|);
    (s.(agendaItems := s.agendaItems[id := item], nextId := s.nextId + 1), id)
  }

  /**
    `createAgendaItem` (convex/agendas.ts): the caller must be authenticated,
    have a user document and be a participant of the event in any role.
  */
  function CreateAgendaItem(s: Store, identity: Option<string>, e: EventId, args: NewItem): (r: Outcome<(Store, ItemId)>)
    ensures identity.None? ==> r == Err(NotAuthenticated)
    ensures r.Ok? <==>
      ResolveUser(s, identity).Ok? && FindParticipant(s, ResolveUser(s, identity).value, e).Ok?
      && FindParticipant(s, ResolveUser(s, identity).value, e).value.Some?
    ensures ResolveUser(s, identity).Ok? && ParticipantRows(s, ResolveUser(s, identity).value, e) == {}
      ==> r == Err(NotAuthorized)
    ensures r.Ok? ==> r.value == InsertAgendaItem(s, e, args)
  {
    var u :- ResolveUser(s, identity);
    var p :- FindParticipant(s, u, e);
    if p.None? then Err(NotAuthorized) else Ok(InsertAgendaItem(s, e, args))
  }

  /** Apply an `ItemPatch` to one document; the unsupplied fields keep their values. */
  function PatchItem(item: AgendaItem, patch: ItemPatch): (r: AgendaItem)
    ensures r.eventId == item.eventId && r.votes == item.votes && r.order == item.order
    ensures r.title == (if patch.title.Some? then patch.title.value else item.title)
    ensures r.duration == (if patch.duration.Some? then patch.duration.value else item.duration)
    ensures r.startTime == (if patch.startTime.Some? then patch.startTime.value else item.startTime)
    ensures r.endTime == (if patch.endTime.Some? then patch.endTime else item.endTime)
    ensures r.description == (if patch.description.Some? then patch.description else item.description)
    ensures r.itemType == (if patch.itemType.Some? then patch.itemType.value else item.itemType)
  {
    item.(
      title := if patch.title.Some? then patch.title.value else item.title,
      duration := if patch.duration.Some? then patch.duration.value else item.duration,
      startTime := if patch.startTime.Some? then patch.startTime.value else item.startTime,
      endTime := if patch.endTime.Some? then patch.endTime else item.endTime,
      description := if patch.description.Some? then patch.description else item.description,
      itemType := if patch.itemType.Some? then patch.itemType.value else item.itemType)
  }

  /** `updateAgendaItem`: patch the supplied fields of an existing item. */
  function UpdateAgendaItem(s: Store, itemId: ItemId, patch: ItemPatch): (r: Outcome<Store>)
    ensures r.Err? <==> itemId !in s.agendaItems
    ensures r.Err? ==> r.error == MissingDocument
    ensures r.Ok? ==> r.value.agendaItems.Keys == s.agendaItems.Keys
    ensures r.Ok? ==> r.value.agendaItems[itemId] == PatchItem(s.agendaItems[itemId], patch)
    ensures r.Ok? ==> forall i :: i in s.agendaItems && i != itemId ==> r.value.agendaItems[i] == s.agendaItems[i]
    ensures r.Ok? ==> r.value.(agendaItems := s.agendaItems) == s
  {
    if itemId !in s.agendaItems then Err(MissingDocument)
    else Ok(s.(agendaItems := s.agendaItems[itemId := PatchItem(s.agendaItems[itemId], patch)]))
  }

  /**
    `deleteAgendaItem`: delete every vote on the item, then the item. Deleting
    an absent item throws, which rolls the vote deletions back too.
  */
  function DeleteAgendaItem(s: Store, itemId: ItemId): (r: Outcome<Store>)
    ensures r.Err? <==> itemId !in s.agendaItems
    ensures r.Err? ==> r.error == MissingDocument
    ensures r.Ok? ==> r.value.agendaItems.Keys == s.agendaItems.Keys - {itemId}
    ensures r.Ok? ==> forall i :: i in r.value.agendaItems ==> r.value.agendaItems[i] == s.agendaItems[i]
    ensures r.Ok? ==> forall v :: v in r.value.votes ==> r.value.votes[v].agendaItemId != itemId
    ensures r.Ok? ==> forall v :: v in s.votes && s.votes[v].agendaItemId != itemId ==>
      v in r.value.votes && r.value.votes[v] == s.votes[v]
    ensures r.Ok? ==> forall v :: v in r.value.votes ==> v in s.votes && r.value.votes[v] == s.votes[v]
    ensures r.Ok? ==> r.value.(agendaItems := s.agendaItems, votes := s.votes) == s
  {
    if itemId !in s.agendaItems then Err(MissingDocument)
    else Ok(s.(votes := s.votes - VotesFor(s.votes, itemId), agendaItems := s.agendaItems - {itemId}))
  }

  /**
    The loop of `reorderAgendaItems`: patch `order := k` on `ids[k]` for
    k = 0, 1, ... in turn. A missing id makes its patch throw, which rolls
    back the earlier ones. An id listed twice keeps its last index.
  */
  function PatchOrders(items: map<ItemId, AgendaItem>, ids: seq<ItemId>): (r: Outcome<map<ItemId, AgendaItem>>)
    ensures r.Ok? <==> forall k :: 0 <= k < |ids| ==> ids[k] in items
    ensures r.Err? ==> r.error == MissingDocument
    ensures r.Ok? ==> r.value.Keys == items.Keys
    decreases |ids|
  {
    if ids == [] then Ok(items)
    else
      var n := |ids| - 1;
      var prev := PatchOrders(items, ids[..n]);
      assert forall k :: 0 <= k < n ==> ids[..n][k] == ids[k];
      if prev.Err? || ids[n] !in prev.value then Err(MissingDocument)
      else Ok(prev.value[ids[n] := prev.value[ids[n]].(order := n)])
  }

  /** The loop writes `order` and nothing else, and only on listed ids. */
  lemma {:induction false} PatchOrdersFrame(items: map<ItemId, AgendaItem>, ids: seq<ItemId>)
    requires PatchOrders(items, ids).Ok?
    ensures var m := PatchOrders(items, ids).value;
      forall i :: i in items ==> m[i] == items[i].(order := m[i].order)
    ensures var m := PatchOrders(items, ids).value;
      forall i :: i in items && i !in ids ==> m[i] == items[i]
    decreases |ids|
  {
    if ids != [] {
      var n := |ids| - 1;
      PatchOrdersFrame(items, ids[..n]);
      var prev := PatchOrders(items, ids[..n]).value;
      var m := PatchOrders(items, ids).value;
      assert m == prev[ids[n] := prev[ids[n]].(order := n)];
      forall i | i in items && i !in ids ensures m[i] == items[i] {
        assert i !in ids[..n] && i != ids[n];
      }
    }
  }

  /** The last occurrence of an id in the list decides its order: its index. */
  lemma {:induction false} PatchOrdersLastIndex(items: map<ItemId, AgendaItem>, ids: seq<ItemId>)
    requires PatchOrders(items, ids).Ok?
    ensures var m := PatchOrders(items, ids).value;
      forall p :: 0 <= p < |ids| && ids[p] !in ids[p + 1..] ==> m[ids[p]].order == p
    decreases |ids|
  {
    if ids != [] {
      var n := |ids| - 1;
      PatchOrdersLastIndex(items, ids[..n]);
      LastOccurrenceInPrefix(ids);
      var prev := PatchOrders(items, ids[..n]).value;
      var m := PatchOrders(items, ids).value;
      assert m == prev[ids[n] := prev[ids[n]].(order := n)];
      forall p | 0 <= p < |ids| && ids[p] !in ids[p + 1..] ensures m[ids[p]].order == p {
        if p < n {
          assert ids[..n][p] == ids[p];
        }
      }
    }
  }

  /** An entry that is the last occurrence of its id in `ids` is so in every prefix holding it. */
  lemma LastOccurrenceInPrefix(ids: seq<ItemId>)
    requires ids != []
    ensures forall p :: 0 <= p < |ids| - 1 && ids[p] !in ids[p + 1..] ==>
      ids[p] !in ids[..|ids| - 1][p + 1..] && ids[p] != ids[|ids| - 1]
  {
    var n := |ids| - 1;
    forall p | 0 <= p < n && ids[p] !in ids[p + 1..]
      ensures ids[p] !in ids[..n][p + 1..] && ids[p] != ids[n]
    {
      assert ids[..n][p + 1..] == ids[p + 1..n];
      assert ids[n] == ids[p + 1..][n - p - 1];
    }
  }

  /**
    `reorderAgendaItems`: write `order = index` for each listed id. The
    `eventId` argument is never consulted, so nothing ties the ids to it.
  */
  function ReorderAgendaItems(s: Store, e: EventId, ids: seq<ItemId>): (r: Outcome<Store>)
    ensures r.Ok? <==> forall k :: 0 <= k < |ids| ==> ids[k] in s.agendaItems
    ensures r.Ok? ==> r.value.(agendaItems := s.agendaItems) == s
    ensures r.Ok? ==> r.value.agendaItems.Keys == s.agendaItems.Keys
    ensures r.Ok? ==> forall p :: 0 <= p < |ids| && ids[p] !in ids[p + 1..] ==> r.value.agendaItems[ids[p]].order == p
    ensures r.Ok? ==> forall i :: i in s.agendaItems && i !in ids ==> r.value.agendaItems[i] == s.agendaItems[i]
    ensures r.Ok? ==> forall i :: i in s.agendaItems ==>
      r.value.agendaItems[i] == s.agendaItems[i].(order := r.value.agendaItems[i].order)
  {
    var m :- PatchOrders(s.agendaItems, ids);
    PatchOrdersFrame(s.agendaItems, ids);
    PatchOrdersLastIndex(s.agendaItems, ids);
    Ok(s.(agendaItems := m))
  }

  // ---------------------------------------------------------------------------
  // The ordering invariant
  // ---------------------------------------------------------------------------

  function OrderSet(s: Store, e: EventId): set<int> {
    set i | i in ItemsOf(s, e) :: s.agendaItems[i].order
  }

  /** The slots 0..n-1. */
  function Range(n: nat): (r: set<int>)
    ensures forall k :: k in r <==> 0 <= k < n
  {
    if n == 0 then {} else Range(n - 1) + {n - 1}
  }

  /** The event's `order` values are exactly 0..n-1, each held by one item. */
  predicate OrdersContiguous(s: Store, e: EventId) {
    && (forall i, j :: i in ItemsOf(s, e) && j in ItemsOf(s, e) && i != j ==>
          s.agendaItems[i].order != s.agendaItems[j].order)
    && OrderSet(s, e) == Range(|ItemsOf(s, e)|)
  }

  /** The insert adds the new id to its event's items and to no other event's. */
  lemma InsertItemsOf(s: Store, e: EventId, args: NewItem, other: EventId)
    requires s.nextId !in s.agendaItems
    ensures var (s', id) := InsertAgendaItem(s, e, args);
      ItemsOf(s', other) == if other == e then ItemsOf(s, e) + {id} else ItemsOf(s, other)
  {
    var r := InsertAgendaItem(s, e, args);
    ItemsOfAfterAdd(s, r.0, r.1, other);
  }

  /** Adding one item under an unused id adds it to its own event's items only. */
  lemma ItemsOfAfterAdd(s: Store, s': Store, id: ItemId, other: EventId)
    requires id !in s.agendaItems && id in s'.agendaItems
    requires s'.agendaItems == s.agendaItems[id := s'.agendaItems[id]]
    ensures ItemsOf(s', other) ==
      if other == s'.agendaItems[id].eventId then ItemsOf(s, other) + {id} else ItemsOf(s, other)
  {
    if other == s'.agendaItems[id].eventId {
      assert ItemsOf(s', other) == ItemsOf(s, other) + {id};
    } else {
      assert ItemsOf(s', other) == ItemsOf(s, other);
    }
  }

  /** Every order of the event after the insert is an old one or the new slot. */
  lemma InsertOrderSetShrinks(s: Store, e: EventId, args: NewItem)
    requires s.nextId !in s.agendaItems
    ensures OrderSet(InsertAgendaItem(s, e, args).0, e) <= OrderSet(s, e) + {|ItemsOf(s, e)|}
  {
    var (s', id) := InsertAgendaItem(s, e, args);
    InsertItemsOf(s, e, args, e);
    forall o | o in OrderSet(s', e) ensures o in OrderSet(s, e) + {|ItemsOf(s, e)|} {
      var i :| i in ItemsOf(s', e) && s'.agendaItems[i].order == o;
      if i != id {
        assert i in ItemsOf(s, e);
      }
    }
  }

  /** Every old order of the event, and the new slot, survive the insert. */
  lemma InsertOrderSetGrows(s: Store, e: EventId, args: NewItem)
    requires s.nextId !in s.agendaItems
    ensures OrderSet(s, e) + {|ItemsOf(s, e)|} <= OrderSet(InsertAgendaItem(s, e, args).0, e)
  {
    var (s', id) := InsertAgendaItem(s, e, args);
    InsertItemsOf(s, e, args, e);
    forall o | o in OrderSet(s, e) ensures o in OrderSet(s', e) {
      var i :| i in ItemsOf(s, e) && s.agendaItems[i].order == o;
      assert i in ItemsOf(s', e);
    }
    assert id in ItemsOf(s', e);
  }

  /** The new item's slot is free, so the event's orders stay pairwise distinct. */
  lemma {:induction false} InsertKeepsOrdersDistinct(s: Store, e: EventId, args: NewItem)
    requires s.nextId !in s.agendaItems && OrdersContiguous(s, e)
    ensures var s' := InsertAgendaItem(s, e, args).0;
      forall i, j :: i in ItemsOf(s', e) && j in ItemsOf(s', e) && i != j ==>
        s'.agendaItems[i].order != s'.agendaItems[j].order
  {
    var (s', id) := InsertAgendaItem(s, e, args);
    var before := ItemsOf(s, e);
    InsertItemsOf(s, e, args, e);
    assert |before| !in Range(|before|);
    forall i, j | i in ItemsOf(s', e) && j in ItemsOf(s', e) && i != j
      ensures s'.agendaItems[i].order != s'.agendaItems[j].order
    {
      if i != id && j != id {
        assert i in before && j in before;
      } else if i == id {
        assert s.agendaItems[j].order in OrderSet(s, e);
      } else {
        assert s.agendaItems[i].order in OrderSet(s, e);
      }
    }
  }

  /** A new item takes the next free slot: contiguity 0..n-1 becomes 0..n. */
  lemma {:induction false} CreateKeepsContiguity(s: Store, e: EventId, args: NewItem)
    requires s.nextId !in s.agendaItems && OrdersContiguous(s, e)
    ensures var (s', id) := InsertAgendaItem(s, e, args);
      && ItemsOf(s', e) == ItemsOf(s, e) + {id}
      && s'.agendaItems[id].order == |ItemsOf(s, e)|
      && OrdersContiguous(s', e)
  {
    var s' := InsertAgendaItem(s, e, args).0;
    var id := s.nextId;
    var n := |ItemsOf(s, e)|;
    InsertItemsOf(s, e, args, e);
    InsertOrderSetShrinks(s, e, args);
    InsertOrderSetGrows(s, e, args);
    InsertKeepsOrdersDistinct(s, e, args);
    assert id !in ItemsOf(s, e);
    assert |ItemsOf(s', e)| == n + 1;
    assert OrderSet(s', e) == OrderSet(s, e) + {n};
    assert Range(n + 1) == Range(n) + {n};
    assert OrderSet(s', e) == Range(|ItemsOf(s', e)|);
  }

  /** Inserting into one event leaves every other event's items as they were. */
  lemma CreateLeavesOtherEvents(s: Store, e: EventId, other: EventId, args: NewItem)
    requires s.nextId !in s.agendaItems && other != e
    ensures var s' := InsertAgendaItem(s, e, args).0;
      ItemsOf(s', other) == ItemsOf(s, other) && OrderSet(s', other) == OrderSet(s, other)
  {
    InsertItemsOf(s, e, args, other);
  }

  /**
    `deleteAgendaItem` never renumbers: on a contiguous event it keeps
    contiguity exactly when the deleted item held the last slot.
  */
  lemma DeleteContiguousIffLast(s: Store, x: ItemId, e: EventId)
    requires x in ItemsOf(s, e) && OrdersContiguous(s, e)
    ensures DeleteAgendaItem(s, x).Ok?
    ensures OrdersContiguous(DeleteAgendaItem(s, x).value, e) <==>
      s.agendaItems[x].order == |ItemsOf(s, e)| - 1
  {
    if s.agendaItems[x].order == |ItemsOf(s, e)| - 1 {
      DeleteLastKeepsContiguity(s, x, e);
    } else {
      DeleteInnerBreaksContiguity(s, x, e);
    }
  }

  /** Deleting the item in the last slot leaves slots 0..n-2, each held once. */
  lemma {:induction false} DeleteLastKeepsContiguity(s: Store, x: ItemId, e: EventId)
    requires x in ItemsOf(s, e) && OrdersContiguous(s, e)
    requires s.agendaItems[x].order == |ItemsOf(s, e)| - 1
    ensures DeleteAgendaItem(s, x).Ok?
    ensures OrdersContiguous(DeleteAgendaItem(s, x).value, e)
  {
    var s' := DeleteAgendaItem(s, x).value;
    var n := |ItemsOf(s, e)|;
    assert ItemsOf(s', e) == ItemsOf(s, e) - {x};
    assert |ItemsOf(s', e)| == n - 1;
    assert OrderSet(s', e) == OrderSet(s, e) - {n - 1} by {
      forall o | o in OrderSet(s', e) ensures o in OrderSet(s, e) - {n - 1} {
        var i :| i in ItemsOf(s', e) && s'.agendaItems[i].order == o;
        assert i in ItemsOf(s, e) && i != x;
      }
      forall o | o in OrderSet(s, e) - {n - 1} ensures o in OrderSet(s', e) {
        var i :| i in ItemsOf(s, e) && s.agendaItems[i].order == o;
        assert i != x;
        assert i in ItemsOf(s', e);
      }
    }
    assert Range(n) - {n - 1} == Range(n - 1);
  }

  /** Deleting any other item leaves slot n-1 taken among only n-1 items. */
  lemma {:induction false} DeleteInnerBreaksContiguity(s: Store, x: ItemId, e: EventId)
    requires x in ItemsOf(s, e) && OrdersContiguous(s, e)
    requires s.agendaItems[x].order != |ItemsOf(s, e)| - 1
    ensures DeleteAgendaItem(s, x).Ok?
    ensures !OrdersContiguous(DeleteAgendaItem(s, x).value, e)
  {
    var s' := DeleteAgendaItem(s, x).value;
    var n := |ItemsOf(s, e)|;
    assert ItemsOf(s', e) == ItemsOf(s, e) - {x};
    assert |ItemsOf(s', e)| == n - 1;
    assert n - 1 in Range(n);
    var y :| y in ItemsOf(s, e) && s.agendaItems[y].order == n - 1;
    assert y != x && y in ItemsOf(s', e);
    assert n - 1 in OrderSet(s', e);
    assert n - 1 !in Range(n - 1);
  }

  /** The ids a list names. */
  function Elems(ids: seq<ItemId>): set<ItemId> {
    set i | i in ids
  }

  /** A list without repeats names as many distinct ids as it has entries. */
  lemma {:induction false} DistinctCard(ids: seq<ItemId>)
    requires forall p, q :: 0 <= p < q < |ids| ==> ids[p] != ids[q]
    ensures |Elems(ids)| == |ids|
  {
    if ids != [] {
      var n := |ids| - 1;
      var prefix := ids[..n];
      DistinctCard(prefix);
      assert Elems(ids) == Elems(prefix) + {ids[n]};
      assert ids[n] !in prefix;
    }
  }

  /**
    The intended use of `reorderAgendaItems`: when the list is a permutation of
    the event's items, every item's order becomes its list index and the
    event's orders are exactly 0..n-1.
  */
  lemma {:induction false} ReorderPermutationIsContiguous(s: Store, e: EventId, ids: seq<ItemId>)
    requires forall p, q :: 0 <= p < q < |ids| ==> ids[p] != ids[q]
    requires Elems(ids) == ItemsOf(s, e)
    ensures ReorderAgendaItems(s, e, ids).Ok?
    ensures forall p :: 0 <= p < |ids| ==> ReorderAgendaItems(s, e, ids).value.agendaItems[ids[p]].order == p
    ensures OrdersContiguous(ReorderAgendaItems(s, e, ids).value, e)
  {
    assert forall k :: 0 <= k < |ids| ==> ids[k] in ItemsOf(s, e);
    var s' := ReorderAgendaItems(s, e, ids).value;
    forall p | 0 <= p < |ids| ensures s'.agendaItems[ids[p]].order == p {
      assert ids[p] !in ids[p + 1..];
    }
    assert ItemsOf(s', e) == ItemsOf(s, e);
    DistinctCard(ids);
    assert |ItemsOf(s', e)| == |ids|;
    assert OrderSet(s', e) == Range(|ids|) by {
      forall o | o in OrderSet(s', e) ensures o in Range(|ids|) {
        var i :| i in ItemsOf(s', e) && s'.agendaItems[i].order == o;
        var p :| 0 <= p < |ids| && ids[p] == i;
      }
      forall o | o in Range(|ids|) ensures o in OrderSet(s', e) {
        assert ids[o] in ItemsOf(s', e);
        assert s'.agendaItems[ids[o]].order == o;
      }
    }
    forall i, j | i in ItemsOf(s', e) && j in ItemsOf(s', e) && i != j
      ensures s'.agendaItems[i].order != s'.agendaItems[j].order
    {
      var p :| 0 <= p < |ids| && ids[p] == i;
      var q :| 0 <= q < |ids| && ids[q] == j;
    }
  }

  /**
    No membership validation: a list naming an item of a different event
    succeeds and rewrites that item's order.
  */
  lemma ReorderTouchesForeignItems(s: Store, e: EventId, x: ItemId)
    requires x in s.agendaItems && s.agendaItems[x].eventId != e
    ensures ReorderAgendaItems(s, e, [x]).Ok?
    ensures ReorderAgendaItems(s, e, [x]).value.agendaItems[x].order == 0
    ensures ReorderAgendaItems(s, e, [x]).value.agendaItems[x].eventId != e
  {
    assert x !in [x][1..];
  }

  /**
    No completeness validation: a one-entry list that moves an item of a
    contiguous event to slot 0 leaves two items holding order 0.
  */
  lemma PartialReorderBreaksContiguity(s: Store, e: EventId, y: ItemId)
    requires OrdersContiguous(s, e)
    requires y in ItemsOf(s, e) && s.agendaItems[y].order != 0
    ensures ReorderAgendaItems(s, e, [y]).Ok?
    ensures !OrdersContiguous(ReorderAgendaItems(s, e, [y]).value, e)
  {
    assert y !in [y][1..];
    var s' := ReorderAgendaItems(s, e, [y]).value;
    assert 0 in Range(|ItemsOf(s, e)|) by {
      assert s.agendaItems[y].order in OrderSet(s, e);
    }
    var z :| z in ItemsOf(s, e) && s.agendaItems[z].order == 0;
    assert z != y && z !in [y];
    assert z in ItemsOf(s', e) && y in ItemsOf(s', e);
    assert s'.agendaItems[z].order == 0 == s'.agendaItems[y].order;
  }

  /** `updateAgendaItem` cannot touch `eventId` or `order`, so contiguity is kept. */
  lemma UpdateKeepsContiguity(s: Store, itemId: ItemId, patch: ItemPatch, e: EventId)
    requires UpdateAgendaItem(s, itemId, patch).Ok? && OrdersContiguous(s, e)
    ensures OrdersContiguous(UpdateAgendaItem(s, itemId, patch).value, e)
  {
    var s' := UpdateAgendaItem(s, itemId, patch).value;
    assert ItemsOf(s', e) == ItemsOf(s, e);
    assert forall i :: i in s.agendaItems ==> s'.agendaItems[i].order == s.agendaItems[i].order;
    assert OrderSet(s', e) == OrderSet(s, e);
  }

  /**
    `deleteAgendaItem` deletes the item together with all its votes, so every
    remaining item keeps a counter equal to its vote rows.
  */
  lemma DeleteAgendaItemPreservesLedger(s: Store, itemId: ItemId)
    requires VoteLedger(s) && DeleteAgendaItem(s, itemId).Ok?
    ensures VoteLedger(DeleteAgendaItem(s, itemId).value)
  {
    var s' := DeleteAgendaItem(s, itemId).value;
    forall i | i in s'.agendaItems ensures s'.agendaItems[i].votes == |VotesFor(s'.votes, i)| {
      assert VotesFor(s'.votes, i) == VotesFor(s.votes, i);
    }
  }

  /**
    A new item starts at `votes: 0`, and with every id below `nextId` no vote
    row can name the fresh id yet, so the ledger still holds.
  */
  lemma CreateAgendaItemPreservesLedger(s: Store, identity: Option<string>, e: EventId, args: NewItem)
    requires Fresh(s) && VoteLedger(s)
    requires CreateAgendaItem(s, identity, e, args).Ok?
    ensures VoteLedger(CreateAgendaItem(s, identity, e, args).value.0)
  {
    var (s', id) := CreateAgendaItem(s, identity, e, args).value;
    assert s'.votes == s.votes;
    assert VotesFor(s.votes, id) == {};
  }
}

=== FILE: calendar.dfy ===
/**
  The calendar view's time arithmetic
  (src/features/dashboard/event/agenda/calendar-view.tsx): `"HH:MM"` start
  times read as minutes from midnight, the hour range that covers every item,
  the list of hour slots, and the per-type legend counts.

  JavaScript's `NaN` and `Infinity` appear as `None`: a time that does not
  parse, or an empty agenda, leaves no finite hour range.
*/
module Calendar {
  import opened Wrappers
  import opened Schema

  // ---- String.prototype.split(':') ----

  /** `s.split(':')`: the pieces between colons, at least one, possibly empty. */
  function Split(s: string): (r: seq<string>)
    ensures |r| >= 1
    ensures forall i :: 0 <= i < |r| ==> ':' !in r[i]
    decreases |s|
  {
    if s == [] then [[]]
    else
      var rest := Split(s[1..]);
      if s[0] == ':' then [[]] + rest
      else [[s[0]] + rest[0]] + rest[1..]
  }

  /** `parts.join(':')`. */
  function Join(parts: seq<string>): string
    decreases |parts|
  {
    if |parts| <= 1 then (if parts == [] then [] else parts[0])
    else parts[0] + ":" + Join(parts[1..])
  }

  /** Splitting loses nothing: joining the pieces back gives the string. */
  lemma {:induction false} JoinSplit(s: string)
    ensures Join(Split(s)) == s
    decreases |s|
  {
    if s != [] {
      var rest := Split(s[1..]);
      JoinSplit(s[1..]);
      if s[0] == ':' {
        assert s == [':'] + s[1..];
      } else {
        assert s == [s[0]] + s[1..];
        if |rest| > 1 {
          assert Join(rest) == rest[0] + ":" + Join(rest[1..]);
        }
      }
    }
  }

  /** A piece without colons followed by a colon is the first field. */
  lemma {:induction false} SplitAtColon(a: string, b: string)
    requires ':' !in a
    ensures Split(a + ":" + b) == [a] + Split(b)
    decreases |a|
  {
    if a == [] {
      assert a + ":" + b == [':'] + b;
    } else {
      SplitAtColon(a[1..], b);
      assert (a + ":" + b)[1..] == a[1..] + ":" + b;
      assert a == [a[0]] + a[1..];
    }
  }

  /** A string without colons splits into itself. */
  lemma {:induction false} SplitNoColon(a: string)
    requires ':' !in a
    ensures Split(a) == [a]
    decreases |a|
  {
    if a != [] {
      SplitNoColon(a[1..]);
      assert a == [a[0]] + a[1..];
    }
  }

  // ---- Number(string) on decimal digit strings ----

  predicate IsDigit(c: char) {
    '0' <= c <= '9'
  }

  predicate AllDigits(s: string) {
    forall i :: 0 <= i < |s| ==> IsDigit(s[i])
  }

  /** The decimal value of a digit string, most significant digit first; `""` is 0. */
  function DigitsValue(s: string): nat
    requires AllDigits(s)
    decreases |s|
  {
    if s == [] then 0
    else DigitsValue(s[..|s| - 1]) * 10 + (s[|s| - 1] as int - '0' as int)
  }

  /**
    `Number(s)` for the strings a time field holds: a run of decimal digits
    (the empty string included) is its value; anything else is `NaN`.
  */
  function ToNumber(s: string): (r: Option<nat>)
    ensures r.Some? <==> AllDigits(s)
  {
    if AllDigits(s) then Some(DigitsValue(s)) else None
  }

  /** The decimal numeral of `n`, as `String(n)` writes it. */
  function Numeral(n: nat): (r: string)
    ensures |r| >= 1 && AllDigits(r)
    decreases n
  {
    var d := ['0' + (n % 10) as char];
    if n < 10 then d else Numeral(n / 10) + d
  }

  /** `Number(String(n)) == n` for every natural `n`. */
  lemma {:induction false} ToNumberNumeral(n: nat)
    ensures ToNumber(Numeral(n)) == Some(n)
    decreases n
  {
    var s := Numeral(n);
    assert s[|s| - 1] as int - '0' as int == n % 10;
    if n < 10 {
      assert s == ['0' + (n % 10) as char];
      assert s[..0] == [];
      assert DigitsValue(s[..0]) == 0;
    } else {
      ToNumberNumeral(n / 10);
      assert s[..|s| - 1] == Numeral(n / 10);
    }
  }

  /** Two digits with a leading zero, as `<input type="time">` writes hours and minutes. */
  function Pad2(n: nat): (r: string)
    requires n < 100
    ensures |r| == 2 && AllDigits(r) && ':' !in r
  {
    ['0' + (n / 10) as char, '0' + (n % 10) as char]
  }

  lemma Pad2Value(n: nat)
    requires n < 100
    ensures DigitsValue(Pad2(n)) == n
  {
    var s := Pad2(n);
    assert s[..1][..0] == [];
    assert s[..1] == [s[0]];
    assert s[0] as int - '0' as int == n / 10;
    assert s[1] as int - '0' as int == n % 10;
    assert DigitsValue(s[..1]) == n / 10;
  }

  // ---- parseTime ----

  /**
    `parseTime`: split on ':' and read the first two pieces as numbers; hours
    times sixty plus minutes. A missing minutes piece is `undefined`, so `NaN`.
  */
  function ParseTime(t: string): (r: Option<int>)
    ensures r.Some? <==> |Split(t)| >= 2 && AllDigits(Split(t)[0]) && AllDigits(Split(t)[1])
    ensures r.Some? ==> r.value == DigitsValue(Split(t)[0]) * 60 + DigitsValue(Split(t)[1])
  {
    var parts := Split(t);
    if |parts| < 2 then None
    else
      match (ToNumber(parts[0]), ToNumber(parts[1]))
      case (Some(h), Some(m)) => Some(h * 60 + m)
      case _ => None
  }

  /** `"HH:MM"` with digit fields parses to HH * 60 + MM; trailing `":SS"` pieces are ignored. */
  lemma {:induction false} ParseTimeOfFields(hh: string, mm: string, rest: string)
    requires AllDigits(hh) && AllDigits(mm)
    requires rest == [] || rest[0] == ':'
    ensures ParseTime(hh + ":" + mm + rest) == Some(DigitsValue(hh) * 60 + DigitsValue(mm))
  {
    assert ':' !in hh && ':' !in mm;
    assert hh + ":" + mm + rest == hh + ":" + (mm + rest);
    SplitAtColon(hh, mm + rest);
    if rest == [] {
      assert mm + rest == mm;
      SplitNoColon(mm);
    } else {
      assert mm + rest == mm + ":" + rest[1..];
      SplitAtColon(mm, rest[1..]);
    }
  }

  /** Two-digit fields round-trip: the formatted `h:m` parses back to its minute of the day. */
  lemma FormattedTimeParses(h: nat, m: nat)
    requires h < 100 && m < 100
    ensures ParseTime(Pad2(h) + ":" + Pad2(m)) == Some(h * 60 + m)
  {
    Pad2Value(h);
    Pad2Value(m);
    ParseTimeOfFields(Pad2(h), Pad2(m), []);
    assert Pad2(h) + ":" + Pad2(m) + [] == Pad2(h) + ":" + Pad2(m);
  }

  /** `"9"` has no minutes piece, so it is `NaN`; `"9:"` has an empty one, which `Number` reads as 0. */
  lemma ParseTimeEdges()
    ensures ParseTime("9") == None
    ensures ParseTime("9:") == Some(540)
    ensures ParseTime("9:3x") == None
  {
    SplitNoColon("9");
    SplitAtColon("9", "");
    SplitNoColon("");
    SplitAtColon("9", "3x");
    SplitNoColon("3x");
    assert "9:" == "9" + ":" + "";
    assert "9:3x" == "9" + ":" + "3x";
    assert !IsDigit("3x"[1]);
  }

  // ---- the hour range ----

  /** Every item's start time in minutes, or `None` if one of them is `NaN`. */
  function StartMinutes(agenda: seq<AgendaItem>): (r: Option<seq<int>>)
    ensures r.Some? <==> forall i :: 0 <= i < |agenda| ==> ParseTime(agenda[i].startTime).Some?
    ensures r.Some? ==>
      && |r.value| == |agenda|
      && forall i :: 0 <= i < |agenda| ==> r.value[i] == ParseTime(agenda[i].startTime).value
    decreases |agenda|
  {
    if agenda == [] then Some([])
    else
      assert forall i :: 1 <= i < |agenda| ==> agenda[i] == agenda[1..][i - 1];
      match (ParseTime(agenda[0].startTime), StartMinutes(agenda[1..]))
      case (Some(t), Some(ts)) =>
        var r := [t] + ts;
        assert forall i :: 1 <= i < |agenda| ==> r[i] == ts[i - 1];
        Some(r)
      case (None, _) => None
      case (_, None) => None
  }

  /** Each item's end in minutes: its start plus its duration. */
  function EndMinutes(agenda: seq<AgendaItem>, starts: seq<int>): (r: seq<int>)
    requires |starts| == |agenda|
    ensures |r| == |agenda|
    ensures forall i :: 0 <= i < |agenda| ==> r[i] == starts[i] + agenda[i].duration
  {
    seq(|agenda|, i requires 0 <= i < |agenda| => starts[i] + agenda[i].duration)
  }

  /** `Math.min(...xs)` on a non-empty list. */
  function MinOf(xs: seq<int>): (r: int)
    requires |xs| > 0
    ensures r in xs && forall i :: 0 <= i < |xs| ==> r <= xs[i]
    decreases |xs|
  {
    if |xs| == 1 then xs[0]
    else
      var m := MinOf(xs[1..]);
      assert forall i :: 1 <= i < |xs| ==> xs[i] == xs[1..][i - 1];
      if xs[0] <= m then xs[0] else m
  }

  /** `Math.max(...xs)` on a non-empty list. */
  function MaxOf(xs: seq<int>): (r: int)
    requires |xs| > 0
    ensures r in xs && forall i :: 0 <= i < |xs| ==> xs[i] <= r
    decreases |xs|
  {
    if |xs| == 1 then xs[0]
    else
      var m := MaxOf(xs[1..]);
      assert forall i :: 1 <= i < |xs| ==> xs[i] == xs[1..][i - 1];
      if xs[0] >= m then xs[0] else m
  }

  /** `Math.floor(x / d)`. */
  function FloorDiv(x: int, d: int): (r: int)
    requires d > 0
    ensures r * d <= x < r * d + d
  {
    x / d
  }

  /** `Math.ceil(x / d)`. */
  function CeilDiv(x: int, d: int): (r: int)
    requires d > 0
    ensures r * d - d < x <= r * d
  {
    -((-x) / d)
  }

  /** `startHour` and `endHour`. */
  datatype HourRange = HourRange(startHour: int, endHour: int)

  /**
    `startHour = floor(min start / 60)` and `endHour = ceil(max end / 60)`: the
    whole hours that cover every item. `None` for an empty agenda (the
    bounds are infinite) or an unparsable time (they are `NaN`).
  */
  function TimeRange(agenda: seq<AgendaItem>): (r: Option<HourRange>)
    ensures r.None? <==> agenda == [] || StartMinutes(agenda).None?
    ensures r.Some? ==>
      var ts := StartMinutes(agenda).value;
      var h := r.value;
      && (forall i :: 0 <= i < |agenda| ==> h.startHour * 60 <= ts[i] && ts[i] + agenda[i].duration <= h.endHour * 60)
      && (exists i :: 0 <= i < |agenda| && ts[i] < h.startHour * 60 + 60)
      && (exists i :: 0 <= i < |agenda| && ts[i] + agenda[i].duration > h.endHour * 60 - 60)
  {
    if agenda == [] then None
    else
      match StartMinutes(agenda)
      case None => None
      case Some(ts) =>
        var ends := EndMinutes(agenda, ts);
        Some(HourRange(FloorDiv(MinOf(ts), 60), CeilDiv(MaxOf(ends), 60)))
  }

  /**
    `Array.from({ length: endHour - startHour + 1 }, (_, i) => startHour + i)`.
    A negative, infinite or `NaN` length makes an empty array.
  */
  function HourSlots(range: Option<HourRange>): (r: seq<int>)
    ensures range.None? ==> r == []
    ensures range.Some? ==>
      && |r| == (if range.value.endHour - range.value.startHour + 1 > 0 then range.value.endHour - range.value.startHour + 1 else 0)
      && forall i :: 0 <= i < |r| ==> r[i] == range.value.startHour + i
  {
    match range
    case None => []
    case Some(h) =>
      var n := h.endHour - h.startHour + 1;
      seq(if n > 0 then n else 0, i => h.startHour + i)
  }

  /** Every slot lies between the hours, and every hour between them has its slot. */
  lemma HourSlotsSpan(h: HourRange, k: int)
    ensures k in HourSlots(Some(h)) <==> h.startHour <= k <= h.endHour
  {
    var slots := HourSlots(Some(h));
    if h.startHour <= k <= h.endHour {
      assert slots[k - h.startHour] == k;
    }
  }

  /**
    With no negative duration, the slots run from `startHour` to `endHour`
    and every item starts in one of them.
  */
  lemma {:induction false} SlotsCoverAgenda(agenda: seq<AgendaItem>)
    requires TimeRange(agenda).Some?
    requires forall i :: 0 <= i < |agenda| ==> agenda[i].duration >= 0
    ensures var slots := HourSlots(TimeRange(agenda));
      && |slots| >= 1
      && slots[0] == TimeRange(agenda).value.startHour
      && slots[|slots| - 1] == TimeRange(agenda).value.endHour
      && forall i :: 0 <= i < |agenda| ==> FloorDiv(StartMinutes(agenda).value[i], 60) in slots
  {
    var h := TimeRange(agenda).value;
    var ts := StartMinutes(agenda).value;
    assert ts[0] + agenda[0].duration <= h.endHour * 60;
    assert h.startHour * 60 <= ts[0];
    assert h.startHour <= h.endHour;
    forall i | 0 <= i < |agenda|
      ensures FloorDiv(ts[i], 60) in HourSlots(Some(h))
    {
      HourSlotsSpan(h, FloorDiv(ts[i], 60));
    }
  }

  // ---- the legend ----

  /** The legend's rows, in display order. */
  const LegendTypes: seq<string> := ["presentation", "discussion", "activity", "break"]

  /** The items' type names, in agenda order. */
  function TypeNames(agenda: seq<AgendaItem>): (r: seq<string>)
    ensures |r| == |agenda|
    ensures forall i :: 0 <= i < |agenda| ==> r[i] == ItemTypeName(agenda[i].itemType)
  {
    seq(|agenda|, i requires 0 <= i < |agenda| => ItemTypeName(agenda[i].itemType))
  }

  /** The first item's name, then the rest's: as a multiset, one more of the first name. */
  lemma TypeNamesCons(agenda: seq<AgendaItem>)
    requires agenda != []
    ensures multiset(TypeNames(agenda)) == multiset{ItemTypeName(agenda[0].itemType)} + multiset(TypeNames(agenda[1..]))
  {
    assert TypeNames(agenda) == [ItemTypeName(agenda[0].itemType)] + TypeNames(agenda[1..]);
  }

  /** `agenda.filter((item) => item.type === type).length`. */
  function CountOfType(agenda: seq<AgendaItem>, t: string): (r: nat)
    ensures r == multiset(TypeNames(agenda))[t]
    ensures r <= |agenda|
    ensures r == 0 <==> forall i :: 0 <= i < |agenda| ==> ItemTypeName(agenda[i].itemType) != t
    ensures r == |agenda| <==> forall i :: 0 <= i < |agenda| ==> ItemTypeName(agenda[i].itemType) == t
    decreases |agenda|
  {
    if agenda == [] then 0
    else
      var rest := CountOfType(agenda[1..], t);
      assert forall i :: 1 <= i < |agenda| ==> agenda[i] == agenda[1..][i - 1];
      TypeNamesCons(agenda);
      (if ItemTypeName(agenda[0].itemType) == t then 1 else 0) + rest
  }

  /** The legend's counts, one per row. */
  function LegendCounts(agenda: seq<AgendaItem>): (r: seq<nat>)
    ensures |r| == |LegendTypes|
    ensures forall k :: 0 <= k < |r| ==> r[k] == CountOfType(agenda, LegendTypes[k])
  {
    seq(|LegendTypes|, k requires 0 <= k < |LegendTypes| => CountOfType(agenda, LegendTypes[k]))
  }

  /** The four legend rows account for every item exactly once. */
  lemma {:induction false} LegendAccountsForEveryItem(agenda: seq<AgendaItem>)
    ensures var c := LegendCounts(agenda); c[0] + c[1] + c[2] + c[3] == |agenda|
    decreases |agenda|
  {
    if agenda != [] {
      LegendAccountsForEveryItem(agenda[1..]);
      var c := LegendCounts(agenda);
      var d := LegendCounts(agenda[1..]);
      var name := ItemTypeName(agenda[0].itemType);
      forall k | 0 <= k < |LegendTypes|
        ensures c[k] == d[k] + (if LegendTypes[k] == name then 1 else 0)
      {
      }
      OneRowMatches(agenda[0].itemType);
    }
  }

  /** An item's type name matches exactly one legend row. */
  lemma OneRowMatches(t: ItemType)
    ensures var name := ItemTypeName(t);
      (if LegendTypes[0] == name then 1 else 0) + (if LegendTypes[1] == name then 1 else 0)
      + (if LegendTypes[2] == name then 1 else 0) + (if LegendTypes[3] == name then 1 else 0) == 1
  {
    var name := ItemTypeName(t);
    assert forall k :: 0 <= k < |LegendTypes| && LegendTypes[k] == name ==> LegendTypes[k][0] == name[0];
  }

  /** Each item type has exactly one legend row. */
  lemma LegendRowPerType(t: ItemType)
    ensures exists k :: 0 <= k < |LegendTypes| && LegendTypes[k] == ItemTypeName(t)
    ensures forall k, l :: 0 <= k < l < |LegendTypes| ==> LegendTypes[k] != LegendTypes[l]
  {
    match t
    case Presentation => assert LegendTypes[0] == ItemTypeName(t);
    case Discussion => assert LegendTypes[1] == ItemTypeName(t);
    case Activity => assert LegendTypes[2] == ItemTypeName(t);
    case Break => assert LegendTypes[3] == ItemTypeName(t);
  }
}

=== FILE: events.dfy ===
/**
  The event mutations and queries of convex/events.ts, and that file's
  duplicate `createAgendaItem`, which skips every check.
*/
module Events {
  import opened Wrappers
  import opened Schema
  import opened Access
  import Agendas
  import Votes

  /** The arguments of `createEvent`. */
  datatype NewEvent = NewEvent(
    title: string,
    date: string,
    duration: int,
    status: Status,
    expectedParticipants: int,
    goals: Option<string>,
    tone: Tone,
    isPublic: bool)

  /** The optional arguments of `updateEvent`; `None` is "not supplied". */
  datatype EventPatch = EventPatch(
    title: Option<string>,
    description: Option<string>,
    date: Option<string>,
    duration: Option<int>,
    status: Option<Status>,
    tone: Option<Tone>,
    isPublic: Option<bool>)

  /** An agenda entry as the queries return it: the document plus its voters' names. */
  datatype ItemView = ItemView(id: ItemId, item: AgendaItem, votedBy: map<VoteId, string>)

  /** An event as the queries return it: the document, its agenda and its head count. */
  datatype EventView = EventView(id: EventId, event: Event, agenda: map<ItemId, ItemView>, participants: nat)

  /** The participant rows of an event that carry the owner role. */
  function OwnerRows(s: Store, e: EventId): set<ParticipantId> {
    set p | p in s.participants && s.participants[p].eventId == e && s.participants[p].role == Owner
  }

  /**
    `createEvent`: one event owned by the caller and one owner participant row
    for the caller, written together or not at all.
  */
  function CreateEvent(s: Store, identity: Option<string>, args: NewEvent, createdAt: string): (r: Outcome<(Store, EventId)>)
    ensures identity.None? ==> r == Err(NotAuthenticated)
    ensures r.Ok? <==> ResolveUser(s, identity).Ok?
    ensures r.Ok? ==>
      var (s', e) := r.value;
      && s'.events.Keys == s.events.Keys + {e}
      && s'.events[e] == Event(args.title, args.date, args.duration, args.status, args.expectedParticipants,
           args.tone, args.goals, createdAt, ResolveUser(s, identity).value, args.isPublic, None)
      && (forall x :: x in s.events && x != e ==> s'.events[x] == s.events[x])
      && s'.(events := s.events, participants := s.participants, nextId := s.nextId) == s
    ensures r.Ok? && Fresh(s) ==>
      var (s', e) := r.value;
      && e !in s.events
      && Fresh(s')
      && |ParticipantsOf(s', e)| == 1
      && (forall p :: p in ParticipantsOf(s', e) ==>
            s'.participants[p] == Participant(ResolveUser(s, identity).value, e, Owner, None))
      && (forall p :: p in s.participants ==> p in s'.participants && s'.participants[p] == s.participants[p])
    ensures r.Ok? ==> r.value.0.participants.Keys == s.participants.Keys + ParticipantsOf(r.value.0, r.value.1)
  {
    var u :- ResolveUser(s, identity);
    var e := s.nextId;
    var p := s.nextId + 1;
    var event := Event(args.title, args.date, args.duration, args.status, args.expectedParticipants,
      args.tone, args.goals, createdAt, u, args.isPublic, None);
    var s' := s.(events := s.events[e := event],
                 participants := s.participants[p := Participant(u, e, Owner, None)],
                 nextId := s.nextId + 2);
    OwnerRowFacts(s, s'.participants, e, u);
    Ok((s', e))
  }

  /** The participant table after `createEvent` adds the owner row under `nextId + 1`. */
  lemma OwnerRowFacts(s: Store, rows: map<ParticipantId, Participant>, e: EventId, u: UserId)
    requires e == s.nextId
    requires rows == s.participants[s.nextId + 1 := Participant(u, e, Owner, None)]
    ensures rows.Keys == s.participants.Keys + ParticipantsOf(s.(participants := rows), e)
    ensures Fresh(s) ==> ParticipantsOf(s.(participants := rows), e) == {s.nextId + 1}
  {
    var s' := s.(participants := rows);
    assert s.nextId + 1 in ParticipantsOf(s', e);
  }

  /** The caller of a successful `createEvent` holds the event's only owner row. */
  lemma CreateEventHasOneOwner(s: Store, identity: Option<string>, args: NewEvent, createdAt: string)
    requires Fresh(s)
    requires CreateEvent(s, identity, args, createdAt).Ok?
    ensures var (s', e) := CreateEvent(s, identity, args, createdAt).value;
      && |OwnerRows(s', e)| == 1
      && forall p :: p in OwnerRows(s', e) ==> s'.participants[p].userId == s'.events[e].ownerId
  {
    var r := CreateEvent(s, identity, args, createdAt);
    SoleOwnerRow(r.value.0, r.value.1, ResolveUser(s, identity).value);
  }

  /** An event whose one participant row is an owner row for its ownerId has exactly that owner row. */
  lemma SoleOwnerRow(s: Store, e: EventId, u: UserId)
    requires e in s.events && s.events[e].ownerId == u
    requires |ParticipantsOf(s, e)| == 1
    requires forall p :: p in ParticipantsOf(s, e) ==> s.participants[p] == Participant(u, e, Owner, None)
    ensures |OwnerRows(s, e)| == 1
    ensures forall p :: p in OwnerRows(s, e) ==> s.participants[p].userId == s.events[e].ownerId
  {
    assert OwnerRows(s, e) == ParticipantsOf(s, e);
  }

  /** `createEvent` adds one row for a (user, event) pair no row had, so it keeps the key. */
  lemma {:induction false} CreateEventPreservesKey(s: Store, identity: Option<string>, args: NewEvent, createdAt: string)
    requires Fresh(s) && ParticipantKey(s)
    requires CreateEvent(s, identity, args, createdAt).Ok?
    ensures ParticipantKey(CreateEvent(s, identity, args, createdAt).value.0)
  {
    var (s', e) := CreateEvent(s, identity, args, createdAt).value;
    forall p, q | p in s'.participants && q in s'.participants
        && s'.participants[p].userId == s'.participants[q].userId
        && s'.participants[p].eventId == s'.participants[q].eventId
      ensures p == q
    {
      if p in s.participants && q in s.participants {
        assert s'.participants[p] == s.participants[p] && s'.participants[q] == s.participants[q];
      } else {
        assert p in ParticipantsOf(s', e) && q in ParticipantsOf(s', e);
        SingletonHasOne(ParticipantsOf(s', e));
      }
    }
  }

  /** Voter names for an item, `'Unknown'` where the voter's document is gone. */
  function VoterName(s: Store, u: UserId): (name: string)
    ensures u in s.users ==> name == s.users[u].name
    ensures u !in s.users ==> name == "Unknown"
  {
    if u in s.users then s.users[u].name else "Unknown"
  }

  /** An item with its `votedBy`: one entry per vote row on the item. */
  function ViewItem(s: Store, i: ItemId): (r: ItemView)
    requires i in s.agendaItems
    ensures r.id == i && r.item == s.agendaItems[i]
    ensures r.votedBy.Keys == VotesFor(s.votes, i)
    ensures forall v :: v in r.votedBy ==> r.votedBy[v] == VoterName(s, s.votes[v].userId)
  {
    ItemView(i, s.agendaItems[i], map v | v in VotesFor(s.votes, i) :: VoterName(s, s.votes[v].userId))
  }

  function ViewEvent(s: Store, e: EventId): (r: EventView)
    requires e in s.events
    ensures r.id == e && r.event == s.events[e]
    ensures r.agenda.Keys == ItemsOf(s, e)
    ensures forall i :: i in r.agenda ==> r.agenda[i] == ViewItem(s, i)
    ensures r.participants == |ParticipantsOf(s, e)|
  {
    EventView(e, s.events[e], map i | i in ItemsOf(s, e) :: ViewItem(s, i), |ParticipantsOf(s, e)|)
  }

  /** `getEvent`: no caller check; an absent id is "Event not found". */
  function GetEvent(s: Store, e: EventId): (r: Outcome<EventView>)
    ensures r.Err? <==> e !in s.events
    ensures r.Err? ==> r.error == EventNotFound
    ensures r.Ok? ==> r.value == ViewEvent(s, e)
  {
    if e !in s.events then Err(EventNotFound) else Ok(ViewEvent(s, e))
  }

  /** `getEvents`: every event in the store, whoever asks. */
  function GetEvents(s: Store): (r: map<EventId, EventView>)
    ensures r.Keys == s.events.Keys
    ensures forall e :: e in r ==> GetEvent(s, e) == Ok(r[e])
  {
    map e | e in s.events :: ViewEvent(s, e)
  }

  /** Under the vote ledger, each item's `votedBy` has exactly `votes` entries. */
  lemma VotedByMatchesCounter(s: Store, e: EventId)
    requires VoteLedger(s) && GetEvent(s, e).Ok?
    ensures forall i :: i in GetEvent(s, e).value.agenda ==>
      |GetEvent(s, e).value.agenda[i].votedBy| == GetEvent(s, e).value.agenda[i].item.votes
  {
    var view := GetEvent(s, e).value;
    forall i | i in view.agenda
      ensures |view.agenda[i].votedBy| == view.agenda[i].item.votes
    {
      assert |view.agenda[i].votedBy.Keys| == |VotesFor(s.votes, i)|;
    }
  }

  /** A freshly created event reads back with its fields, no agenda and one participant. */
  lemma CreateThenGetEvent(s: Store, identity: Option<string>, args: NewEvent, createdAt: string)
    requires Fresh(s)
    requires CreateEvent(s, identity, args, createdAt).Ok?
    ensures var (s', e) := CreateEvent(s, identity, args, createdAt).value;
      && GetEvent(s', e).Ok?
      && GetEvent(s', e).value.event.ownerId == ResolveUser(s, identity).value
      && GetEvent(s', e).value.event.title == args.title
      && GetEvent(s', e).value.agenda == map[]
      && GetEvent(s', e).value.participants == 1
  {
    var (s', e) := CreateEvent(s, identity, args, createdAt).value;
    assert ItemsOf(s', e) == {};
  }

  /** Apply an `EventPatch`; the fields it does not name keep their values. */
  function PatchEvent(ev: Event, patch: EventPatch): (r: Event)
    ensures r.ownerId == ev.ownerId && r.createdAt == ev.createdAt
    ensures r.goals == ev.goals && r.expectedParticipants == ev.expectedParticipants
    ensures r.title == (if patch.title.Some? then patch.title.value else ev.title)
    ensures r.description == (if patch.description.Some? then patch.description else ev.description)
    ensures r.date == (if patch.date.Some? then patch.date.value else ev.date)
    ensures r.duration == (if patch.duration.Some? then patch.duration.value else ev.duration)
    ensures r.status == (if patch.status.Some? then patch.status.value else ev.status)
    ensures r.tone == (if patch.tone.Some? then patch.tone.value else ev.tone)
    ensures r.isPublic == (if patch.isPublic.Some? then patch.isPublic.value else ev.isPublic)
  {
    ev.(
      title := if patch.title.Some? then patch.title.value else ev.title,
      description := if patch.description.Some? then patch.description else ev.description,
      date := if patch.date.Some? then patch.date.value else ev.date,
      duration := if patch.duration.Some? then patch.duration.value else ev.duration,
      status := if patch.status.Some? then patch.status.value else ev.status,
      tone := if patch.tone.Some? then patch.tone.value else ev.tone,
      isPublic := if patch.isPublic.Some? then patch.isPublic.value else ev.isPublic)
  }

  /**
    `updateEvent`: patch the supplied fields. The handler takes no identity, so
    it succeeds on any existing event whoever calls; only a missing id throws.
  */
  function UpdateEvent(s: Store, e: EventId, patch: EventPatch): (r: Outcome<Store>)
    ensures r.Err? <==> e !in s.events
    ensures r.Err? ==> r.error == MissingDocument
    ensures r.Ok? ==> r.value.events.Keys == s.events.Keys
    ensures r.Ok? ==> r.value.events[e] == PatchEvent(s.events[e], patch)
    ensures r.Ok? ==> forall x :: x in s.events && x != e ==> r.value.events[x] == s.events[x]
    ensures r.Ok? ==> r.value.(events := s.events) == s
  {
    if e !in s.events then Err(MissingDocument)
    else Ok(s.(events := s.events[e := PatchEvent(s.events[e], patch)]))
  }

  /**
    The missing owner check: `updateEvent` takes no identity, so an existing
    event is rewritten whoever calls, its owner or anyone else.
  */
  lemma NonOwnerCanUpdateEvent(s: Store, e: EventId, patch: EventPatch)
    requires e in s.events
    ensures UpdateEvent(s, e, patch).Ok?
    ensures UpdateEvent(s, e, patch).value.events[e].title ==
      if patch.title.Some? then patch.title.value else s.events[e].title
  {
  }

  /** The patch that supplies no field. */
  const EmptyPatch := EventPatch(None, None, None, None, None, None, None)

  /** An `updateEvent` that supplies no field leaves the store as it was. */
  lemma UpdateEventEmptyPatch(s: Store, e: EventId)
    requires e in s.events
    ensures UpdateEvent(s, e, EmptyPatch) == Ok(s)
  {
    assert PatchEvent(s.events[e], EmptyPatch) == s.events[e];
    assert s.events[e := s.events[e]] == s.events;
  }

  /** Patching twice with the same fields is patching once. */
  lemma UpdateEventIdempotent(s: Store, e: EventId, patch: EventPatch)
    requires e in s.events
    ensures UpdateEvent(UpdateEvent(s, e, patch).value, e, patch) == UpdateEvent(s, e, patch)
  {
    var s1 := UpdateEvent(s, e, patch).value;
    assert PatchEvent(s1.events[e], patch) == s1.events[e];
    assert s1.events[e := s1.events[e]] == s1.events;
  }

  /** The vote rows that point at any of `items`. */
  function VotesOnItems(votes: map<VoteId, Vote>, items: set<ItemId>): set<VoteId> {
    set v | v in votes && votes[v].agendaItemId in items
  }

  /**
    `deleteEvent`: for each of the event's items its votes and then the item,
    then the event's participants, then the event. No caller check. Deleting a
    missing event throws at the last step, rolling back the rest.
  */
  function DeleteEvent(s: Store, e: EventId): (r: Outcome<Store>)
    ensures r.Err? <==> e !in s.events
    ensures r.Err? ==> r.error == MissingDocument
    ensures r.Ok? ==>
      var s' := r.value;
      && s'.events.Keys == s.events.Keys - {e}
      && ItemsOf(s', e) == {}
      && ParticipantsOf(s', e) == {}
      && (forall v :: v in s'.votes ==> s'.votes[v].agendaItemId !in ItemsOf(s, e))
    ensures r.Ok? ==>
      var s' := r.value;
      && (forall x :: x in s.events && x != e ==> x in s'.events && s'.events[x] == s.events[x])
      && (forall i :: i in s.agendaItems && s.agendaItems[i].eventId != e ==>
            i in s'.agendaItems && s'.agendaItems[i] == s.agendaItems[i])
      && (forall p :: p in s.participants && s.participants[p].eventId != e ==>
            p in s'.participants && s'.participants[p] == s.participants[p])
      && (forall v :: v in s.votes && s.votes[v].agendaItemId !in ItemsOf(s, e) ==>
            v in s'.votes && s'.votes[v] == s.votes[v])
    ensures r.Ok? ==>
      var s' := r.value;
      && (forall i :: i in s'.agendaItems ==> i in s.agendaItems && s'.agendaItems[i] == s.agendaItems[i])
      && (forall v :: v in s'.votes ==> v in s.votes && s'.votes[v] == s.votes[v])
      && (forall p :: p in s'.participants ==> p in s.participants && s'.participants[p] == s.participants[p])
      && s'.users == s.users && s'.nextId == s.nextId
  {
    if e !in s.events then Err(MissingDocument)
    else
      var items := ItemsOf(s, e);
      Ok(s.(votes := s.votes - VotesOnItems(s.votes, items),
            agendaItems := s.agendaItems - items,
            participants := s.participants - ParticipantsOf(s, e),
            events := s.events - {e}))
  }

  /** The cascade removes whole items with all their votes, so every remaining counter stays right. */
  lemma DeleteEventPreservesLedger(s: Store, e: EventId)
    requires VoteLedger(s) && DeleteEvent(s, e).Ok?
    ensures VoteLedger(DeleteEvent(s, e).value)
    ensures Votes.VotesReferenceItems(s) ==> Votes.VotesReferenceItems(DeleteEvent(s, e).value)
  {
    var s' := DeleteEvent(s, e).value;
    forall i | i in s'.agendaItems ensures s'.agendaItems[i].votes == |VotesFor(s'.votes, i)| {
      assert i !in ItemsOf(s, e);
      assert VotesFor(s'.votes, i) == VotesFor(s.votes, i);
    }
  }

  /**
    Vote rows carry the `eventId` their voter passed, so a row labelled with the
    deleted event but cast on another event's item survives the cascade.
  */
  lemma DeleteEventKeepsMislabelledVotes(s: Store, e: EventId, v: VoteId)
    requires DeleteEvent(s, e).Ok?
    requires v in s.votes && s.votes[v].eventId == e
    requires s.votes[v].agendaItemId in s.agendaItems && s.agendaItems[s.votes[v].agendaItemId].eventId != e
    ensures v in DeleteEvent(s, e).value.votes
    ensures DeleteEvent(s, e).value.votes[v].eventId == e
  {
  }

  /**
    `createAgendaItem` as duplicated in convex/events.ts: no identity, no user
    and no participant check, and no check that the event exists.
  */
  function CreateAgendaItem(s: Store, e: EventId, args: Agendas.NewItem): (r: (Store, ItemId))
    ensures r.0.agendaItems.Keys == s.agendaItems.Keys + {r.1}
    ensures r.0.agendaItems[r.1].eventId == e
    ensures r.0.agendaItems[r.1].votes == 0
    ensures r.0.agendaItems[r.1].order == |ItemsOf(s, e)|
    ensures r.0.agendaItems[r.1].endTime == Agendas.StoredEndTime(args.endTime)
    ensures Fresh(s) ==> r.1 !in s.agendaItems
    ensures forall i :: i in s.agendaItems && i != r.1 ==> r.0.agendaItems[i] == s.agendaItems[i]
    ensures r.0.(agendaItems := s.agendaItems, nextId := s.nextId) == s
  {
    Agendas.InsertAgendaItem(s, e, args)
  }

  /** With no checks, the duplicate inserts an item even for an event that does not exist. */
  lemma UncheckedCreateMakesOrphans(s: Store, e: EventId, args: Agendas.NewItem)
    requires Fresh(s) && e !in s.events
    ensures var (s', id) := CreateAgendaItem(s, e, args);
      id in s'.agendaItems && s'.agendaItems[id].eventId !in s'.events
  {
  }
}

=== FILE: gantt.dfy ===
/**
  The Gantt view's layout arithmetic
  (src/features/dashboard/event/agenda/gantt-view.tsx): the agenda's total
  length and each bar's start offset, in minutes, as a running sum.
*/
module Gantt {
  import opened Schema

  /** `agenda.reduce((sum, item) => sum + item.duration, 0)`, a left fold. */
  function TotalDuration(agenda: seq<AgendaItem>): int
    decreases |agenda|
  {
    if agenda == [] then 0
    else TotalDuration(agenda[..|agenda| - 1]) + agenda[|agenda| - 1].duration
  }

  /** The total of a concatenation is the sum of the totals. */
  lemma {:induction false} TotalDurationAppend(a: seq<AgendaItem>, b: seq<AgendaItem>)
    ensures TotalDuration(a + b) == TotalDuration(a) + TotalDuration(b)
    decreases |b|
  {
    if b != [] {
      var last := |b| - 1;
      assert (a + b)[..|a + b| - 1] == a + b[..last];
      TotalDurationAppend(a, b[..last]);
    } else {
      assert a + b == a;
    }
  }

  /** With no negative duration the total is non-negative and at least each item's duration. */
  lemma {:induction false} TotalDurationBounds(agenda: seq<AgendaItem>)
    requires forall k :: 0 <= k < |agenda| ==> agenda[k].duration >= 0
    ensures TotalDuration(agenda) >= 0
    ensures forall k :: 0 <= k < |agenda| ==> agenda[k].duration <= TotalDuration(agenda)
    decreases |agenda|
  {
    if agenda != [] {
      var init := agenda[..|agenda| - 1];
      TotalDurationBounds(init);
      assert forall k :: 0 <= k < |init| ==> init[k] == agenda[k];
    }
  }

  /** With no negative duration, a longer prefix never has a smaller total. */
  lemma {:induction false} PrefixTotalsMonotone(agenda: seq<AgendaItem>, i: nat, j: nat)
    requires i <= j <= |agenda|
    requires forall k :: 0 <= k < |agenda| ==> agenda[k].duration >= 0
    ensures TotalDuration(agenda[..i]) <= TotalDuration(agenda[..j])
    decreases j - i
  {
    if i < j {
      PrefixTotalsMonotone(agenda, i, j - 1);
      assert agenda[..j][..j - 1] == agenda[..j - 1];
    }
  }

  /** Extending a prefix by one item adds that item's duration. */
  lemma PrefixStep(agenda: seq<AgendaItem>, i: nat)
    requires i < |agenda|
    ensures TotalDuration(agenda[..i + 1]) == TotalDuration(agenda[..i]) + agenda[i].duration
  {
    assert agenda[..i + 1][..i] == agenda[..i];
  }

  /** An item with its bar's start offset (`startPosition`). */
  datatype Placed = Placed(item: AgendaItem, startPosition: int)

  /**
    The `agendaWithPositions` map: each item keeps its fields and starts at the
    total of the items before it.
  */
  method WithStartPositions(agenda: seq<AgendaItem>) returns (placed: seq<Placed>)
    ensures |placed| == |agenda|
    ensures forall i :: 0 <= i < |agenda| ==> placed[i].item == agenda[i]
    ensures forall i :: 0 <= i < |agenda| ==> placed[i].startPosition == TotalDuration(agenda[..i])
  {
    var cumulative := 0;
    placed := [];
    var n := 0;
    while n < |agenda|
      invariant 0 <= n <= |agenda|
      invariant |placed| == n
      invariant cumulative == TotalDuration(agenda[..n])
      invariant forall i :: 0 <= i < n ==> placed[i] == Placed(agenda[i], TotalDuration(agenda[..i]))
    {
      PrefixStep(agenda, n);
      placed := placed + [Placed(agenda[n], cumulative)];
      cumulative := cumulative + agenda[n].duration;
      n := n + 1;
    }
  }

  /** A layout as `WithStartPositions` produces it. */
  predicate IsLayout(agenda: seq<AgendaItem>, placed: seq<Placed>) {
    && |placed| == |agenda|
    && (forall i :: 0 <= i < |agenda| ==> placed[i].item == agenda[i])
    && (forall i :: 0 <= i < |agenda| ==> placed[i].startPosition == TotalDuration(agenda[..i]))
  }

  /**
    The bars tile the timeline: the first starts at 0, each starts where the
    previous ended, and the last ends at the total duration.
  */
  lemma {:induction false} LayoutTiles(agenda: seq<AgendaItem>, placed: seq<Placed>)
    requires IsLayout(agenda, placed)
    ensures |agenda| > 0 ==> placed[0].startPosition == 0
    ensures forall i :: 0 <= i < |agenda| - 1 ==>
      placed[i + 1].startPosition == placed[i].startPosition + agenda[i].duration
    ensures |agenda| > 0 ==>
      placed[|agenda| - 1].startPosition + agenda[|agenda| - 1].duration == TotalDuration(agenda)
  {
    if |agenda| > 0 {
      assert agenda[..0] == [];
      PrefixStep(agenda, |agenda| - 1);
      assert agenda[..|agenda|] == agenda;
    }
    forall i | 0 <= i < |agenda| - 1
      ensures placed[i + 1].startPosition == placed[i].startPosition + agenda[i].duration
    {
      PrefixStep(agenda, i);
    }
  }

  /** With no negative duration the bars' start offsets never decrease. */
  lemma LayoutMonotone(agenda: seq<AgendaItem>, placed: seq<Placed>)
    requires IsLayout(agenda, placed)
    requires forall k :: 0 <= k < |agenda| ==> agenda[k].duration >= 0
    ensures forall i, j :: 0 <= i <= j < |agenda| ==> placed[i].startPosition <= placed[j].startPosition
  {
    forall i, j | 0 <= i <= j < |agenda|
      ensures placed[i].startPosition <= placed[j].startPosition
    {
      PrefixTotalsMonotone(agenda, i, j);
    }
  }
}

=== FILE: participants.dfy ===
/**
  Participant management and presence (convex/participants.ts): role-gated
  adds, owner-gated removals and role changes, and the five-minute liveness
  window. `now` is the handler's `Date.now()`, passed in.
*/
module Participants {
  import opened Wrappers
  import opened Schema
  import opened Access
  import Events

  /** `getCurrentUserAsParticipant`: anonymity and unknown users read as `null`. */
  function GetCurrentUserAsParticipant(s: Store, identity: Option<string>, e: EventId): (r: Outcome<Option<(ParticipantId, Participant)>>)
    ensures identity.None? ==> r == Ok(None)
    ensures identity.Some? && UsersWithClerkId(s, identity.value) == {} ==> r == Ok(None)
    ensures r.Err? ==> r.error == NotUnique
    ensures ResolveUser(s, identity).Ok? && ParticipantRows(s, ResolveUser(s, identity).value, e) == {} ==> r == Ok(None)
    ensures ResolveUser(s, identity) == Err(NotUnique) ==> r == Err(NotUnique)
    ensures ResolveUser(s, identity).Ok? && |ParticipantRows(s, ResolveUser(s, identity).value, e)| > 1 ==> r == Err(NotUnique)
    ensures forall p :: ResolveUser(s, identity).Ok? && ParticipantRows(s, ResolveUser(s, identity).value, e) == {p} ==>
      r == Ok(Some((p, s.participants[p])))
    ensures r.Ok? && r.value.Some? ==>
      && ResolveUser(s, identity).Ok?
      && var (p, row) := r.value.value;
      && ParticipantRows(s, ResolveUser(s, identity).value, e) == {p}
      && p in s.participants && s.participants[p] == row
  {
    match ResolveUser(s, identity)
    case Err(NotUnique) => Err(NotUnique)
    case Err(_) => Ok(None)
    case Ok(u) =>
      var found :- FindParticipant(s, u, e);
      if found.None? then Ok(None) else Ok(Some((found.value, s.participants[found.value])))
  }

  /** May a participant with this role add others? (`owner` or `editor`.) */
  predicate CanAddParticipants(role: Role) {
    role == Owner || role == Editor
  }

  /**
    `addParticipant`: the caller must hold an owner or editor row on an existing
    event. A target who already has a row is left as is, role included; the
    target user's document is not checked.
  */
  function AddParticipant(s: Store, identity: Option<string>, e: EventId, target: UserId, role: GrantableRole): (r: Outcome<Store>)
    ensures identity.None? ==> r == Err(NotAuthenticated)
    ensures ResolveUser(s, identity).Ok? && e !in s.events ==> r == Err(EventNotFound)
    ensures ResolveUser(s, identity).Ok? && e in s.events && ParticipantRows(s, ResolveUser(s, identity).value, e) == {}
      ==> r == Err(NotAuthorized)
    ensures r.Ok? ==>
      && ResolveUser(s, identity).Ok? && e in s.events
      && var u := ResolveUser(s, identity).value;
      && |ParticipantRows(s, u, e)| == 1
      && (forall p :: p in ParticipantRows(s, u, e) ==> CanAddParticipants(s.participants[p].role))
    ensures (&& ResolveUser(s, identity).Ok? && e in s.events
             && |ParticipantRows(s, ResolveUser(s, identity).value, e)| == 1
             && (forall p :: p in ParticipantRows(s, ResolveUser(s, identity).value, e) ==>
                   CanAddParticipants(s.participants[p].role))
             && |ParticipantRows(s, target, e)| <= 1) ==> r.Ok?
    ensures r.Ok? ==> |ParticipantRows(s, target, e)| <= 1
    ensures r.Ok? && ParticipantRows(s, target, e) != {} ==> r.value == s
    ensures r.Ok? && ParticipantRows(s, target, e) == {} ==>
      && s.nextId in r.value.participants
      && r.value.participants == s.participants[s.nextId := Participant(target, e, role, None)]
      && r.value.(participants := s.participants, nextId := s.nextId) == s
    ensures r.Ok? ==> forall p :: p in r.value.participants ==> r.value.participants[p].role == Owner ==>
      p in s.participants && s.participants[p].role == Owner
  {
    var u :- ResolveUser(s, identity);
    if e !in s.events then Err(EventNotFound)
    else
      var caller :- FindParticipant(s, u, e);
      if caller.None? || !CanAddParticipants(s.participants[caller.value].role) then Err(NotAuthorized)
      else
        var existing :- FindParticipant(s, target, e);
        if existing.Some? then Ok(s)
        else Ok(s.(participants := s.participants[s.nextId := Participant(target, e, role, None)],
                   nextId := s.nextId + 1))
  }

  /** Adding the same participant twice is the same as adding them once. */
  lemma {:induction false} AddParticipantIdempotent(s: Store, identity: Option<string>, e: EventId, target: UserId, role: GrantableRole)
    requires Fresh(s)
    requires AddParticipant(s, identity, e, target, role).Ok?
    ensures var s1 := AddParticipant(s, identity, e, target, role).value;
      AddParticipant(s1, identity, e, target, role) == Ok(s1)
  {
    var s1 := AddParticipant(s, identity, e, target, role).value;
    var u := ResolveUser(s, identity).value;
    assert s1.users == s.users && s1.events == s.events;
    assert ResolveUser(s1, identity) == Ok(u);
    if ParticipantRows(s, target, e) == {} {
      var n := s.nextId;
      assert n !in s.participants;
      assert ParticipantRows(s1, target, e) == {n};
      if u == target {
        assert false;
      }
      assert ParticipantRows(s1, u, e) == ParticipantRows(s, u, e);
    }
  }

  /** `addParticipant` never creates a second row for one (user, event) pair. */
  lemma AddParticipantPreservesKey(s: Store, identity: Option<string>, e: EventId, target: UserId, role: GrantableRole)
    requires Fresh(s) && ParticipantKey(s)
    requires AddParticipant(s, identity, e, target, role).Ok?
    ensures ParticipantKey(AddParticipant(s, identity, e, target, role).value)
  {
    var s' := AddParticipant(s, identity, e, target, role).value;
    if ParticipantRows(s, target, e) == {} {
      assert s.nextId !in s.participants;
      assert forall q :: q in s.participants ==> q !in ParticipantRows(s, target, e);
    }
  }

  /**
    `removeParticipant`: only the event's owner may call it. The row named is
    deleted if it exists, whichever event it belongs to; a missing row is a no-op.
  */
  function RemoveParticipant(s: Store, identity: Option<string>, e: EventId, pid: ParticipantId): (r: Outcome<Store>)
    ensures identity.None? ==> r == Err(NotAuthenticated)
    ensures ResolveUser(s, identity).Ok? && e !in s.events ==> r == Err(EventNotFound)
    ensures ResolveUser(s, identity).Ok? && e in s.events && s.events[e].ownerId != ResolveUser(s, identity).value
      ==> r == Err(NotAuthorized)
    ensures r.Ok? <==>
      ResolveUser(s, identity).Ok? && e in s.events && s.events[e].ownerId == ResolveUser(s, identity).value
    ensures r.Ok? ==> r.value == s.(participants := s.participants - {pid})
  {
    var u :- ResolveUser(s, identity);
    if e !in s.events then Err(EventNotFound)
    else if s.events[e].ownerId != u then Err(NotAuthorized)
    else if pid in s.participants then Ok(s.(participants := s.participants - {pid}))
    else Ok(s)
  }

  /** No check that the row belongs to `eventId`: an owner of one event can remove a row of another. */
  lemma RemoveParticipantCrossesEvents(s: Store, subject: string, e: EventId, pid: ParticipantId)
    requires ClerkIdKey(s) && e in s.events
    requires s.events[e].ownerId in s.users && s.users[s.events[e].ownerId].clerkId == subject
    requires pid in s.participants && s.participants[pid].eventId != e
    ensures RemoveParticipant(s, Some(subject), e, pid).Ok?
    ensures pid !in RemoveParticipant(s, Some(subject), e, pid).value.participants
  {
    ResolveUserUnderKey(s, subject, s.events[e].ownerId);
  }

  /** Nothing stops the owner from removing their own owner row, leaving the event with none. */
  lemma OwnerCanRemoveOwnerRow(s: Store, subject: string, e: EventId, pid: ParticipantId)
    requires ClerkIdKey(s) && e in s.events
    requires s.events[e].ownerId in s.users && s.users[s.events[e].ownerId].clerkId == subject
    requires Events.OwnerRows(s, e) == {pid}
    ensures RemoveParticipant(s, Some(subject), e, pid).Ok?
    ensures Events.OwnerRows(RemoveParticipant(s, Some(subject), e, pid).value, e) == {}
  {
    ResolveUserUnderKey(s, subject, s.events[e].ownerId);
    var s' := RemoveParticipant(s, Some(subject), e, pid).value;
    assert pid in Events.OwnerRows(s, e);
    forall p | p in s'.participants ensures p !in Events.OwnerRows(s', e) {
      assert p != pid;
      assert p !in Events.OwnerRows(s, e);
    }
  }

  /**
    `updatePresence`: stamp `lastSeen := now` on the (user, event) row if there
    is one; otherwise nothing changes. No identity is consulted: `userId` is an
    argument.
  */
  function UpdatePresence(s: Store, e: EventId, u: UserId, now: int): (r: Outcome<Store>)
    ensures r.Err? <==> |ParticipantRows(s, u, e)| > 1
    ensures r.Ok? && ParticipantRows(s, u, e) == {} ==> r.value == s
    ensures r.Ok? ==> forall p :: p in ParticipantRows(s, u, e) ==>
      r.value == s.(participants := s.participants[p := s.participants[p].(lastSeen := Some(now))])
  {
    var found :- FindParticipant(s, u, e);
    if found.None? then Ok(s)
    else
      var p := found.value;
      Ok(s.(participants := s.participants[p := s.participants[p].(lastSeen := Some(now))]))
  }

  /** The liveness window: five minutes, in milliseconds. */
  const PresenceWindow: int := 5 * 60 * 1000

  /** Convex's `gt` on an absent field is false: a participant never seen is never active. */
  predicate IsActive(row: Participant, now: int) {
    row.lastSeen.Some? && row.lastSeen.value > now - PresenceWindow
  }

  /** A participant row joined with its user document, as the participant queries return it. */
  datatype ParticipantView = ParticipantView(row: Participant, user: Option<User>)

  /** `getActiveParticipants`: the event's rows seen strictly within the window whose user exists. */
  function GetActiveParticipants(s: Store, e: EventId, now: int): (r: map<ParticipantId, ParticipantView>)
    ensures forall p :: p in r <==>
      p in ParticipantsOf(s, e) && IsActive(s.participants[p], now) && s.participants[p].userId in s.users
    ensures forall p :: p in r ==>
      r[p] == ParticipantView(s.participants[p], Some(s.users[s.participants[p].userId]))
  {
    map p | p in ParticipantsOf(s, e) && IsActive(s.participants[p], now) && s.participants[p].userId in s.users
      :: ParticipantView(s.participants[p], Some(s.users[s.participants[p].userId]))
  }

  /** `getParticipantsByEvent`: every row of the event, with its user or `null`. */
  function GetParticipantsByEvent(s: Store, e: EventId): (r: map<ParticipantId, ParticipantView>)
    ensures r.Keys == ParticipantsOf(s, e)
    ensures forall p :: p in r ==> r[p].row == s.participants[p]
    ensures forall p :: p in r ==> (r[p].user.Some? <==> s.participants[p].userId in s.users)
    ensures forall p :: p in r && r[p].user.Some? ==> r[p].user.value == s.users[s.participants[p].userId]
  {
    map p | p in ParticipantsOf(s, e) ::
      var u := s.participants[p].userId;
      ParticipantView(s.participants[p], if u in s.users then Some(s.users[u]) else None)
  }

  /** The active participants are the listed participants filtered by the window. */
  lemma ActiveAreListed(s: Store, e: EventId, now: int)
    ensures GetActiveParticipants(s, e, now).Keys <= GetParticipantsByEvent(s, e).Keys
    ensures forall p :: p in GetActiveParticipants(s, e, now) ==>
      GetActiveParticipants(s, e, now)[p] == GetParticipantsByEvent(s, e)[p]
  {
  }

  /**
    A heartbeat at `t` keeps a participant whose user exists in the active set
    for every `now` in [t, t + 5 minutes), and not a millisecond longer.
  */
  lemma {:induction false} HeartbeatKeepsActive(s: Store, e: EventId, u: UserId, t: int, now: int)
    requires ParticipantRows(s, u, e) != {} && u in s.users
    requires UpdatePresence(s, e, u, t).Ok?
    ensures forall p :: p in ParticipantRows(s, u, e) ==>
      (p in GetActiveParticipants(UpdatePresence(s, e, u, t).value, e, now) <==> now < t + PresenceWindow)
  {
    var s' := UpdatePresence(s, e, u, t).value;
    forall p | p in ParticipantRows(s, u, e)
      ensures p in GetActiveParticipants(s', e, now) <==> now < t + PresenceWindow
    {
      assert s'.participants[p].lastSeen == Some(t);
      assert p in ParticipantsOf(s', e);
    }
  }

  /** Seen six minutes ago: inactive. Seen one minute ago: active. */
  lemma PresenceScenario(row: Participant, now: int)
    ensures IsActive(row.(lastSeen := Some(now - 6 * 60 * 1000)), now) == false
    ensures IsActive(row.(lastSeen := Some(now - 1 * 60 * 1000)), now) == true
    ensures IsActive(row.(lastSeen := Some(now - PresenceWindow)), now) == false
    ensures IsActive(row.(lastSeen := None), now) == false
  {
  }

  /**
    `updateParticipantRole`: only the owner of the row's event may change its
    role, and only to editor or viewer.
  */
  function UpdateParticipantRole(s: Store, identity: Option<string>, pid: ParticipantId, role: GrantableRole): (r: Outcome<Store>)
    ensures identity.None? ==> r == Err(NotAuthenticated)
    ensures ResolveUser(s, identity).Ok? && pid !in s.participants ==> r == Err(ParticipantNotFound)
    ensures ResolveUser(s, identity).Ok? && pid in s.participants && s.participants[pid].eventId !in s.events
      ==> r == Err(EventNotFound)
    ensures r.Ok? <==>
      && ResolveUser(s, identity).Ok? && pid in s.participants
      && s.participants[pid].eventId in s.events
      && s.events[s.participants[pid].eventId].ownerId == ResolveUser(s, identity).value
    ensures r.Ok? ==> r.value == s.(participants := s.participants[pid := s.participants[pid].(role := role)])
    ensures r.Ok? ==> r.value.participants[pid].role != Owner
  {
    var u :- ResolveUser(s, identity);
    if pid !in s.participants then Err(ParticipantNotFound)
    else
      var e := s.participants[pid].eventId;
      if e !in s.events then Err(EventNotFound)
      else if s.events[e].ownerId != u then Err(NotAuthorized)
      else Ok(s.(participants := s.participants[pid := s.participants[pid].(role := role)]))
  }

  /** Nothing stops the owner from demoting their own owner row, leaving the event with none. */
  lemma OwnerCanDemoteSelf(s: Store, subject: string, pid: ParticipantId, role: GrantableRole)
    requires ClerkIdKey(s) && pid in s.participants
    requires var e := s.participants[pid].eventId;
      && e in s.events && Events.OwnerRows(s, e) == {pid}
      && s.events[e].ownerId in s.users && s.users[s.events[e].ownerId].clerkId == subject
    ensures UpdateParticipantRole(s, Some(subject), pid, role).Ok?
    ensures Events.OwnerRows(UpdateParticipantRole(s, Some(subject), pid, role).value, s.participants[pid].eventId) == {}
  {
    var e := s.participants[pid].eventId;
    ResolveUserUnderKey(s, subject, s.events[e].ownerId);
    var s' := UpdateParticipantRole(s, Some(subject), pid, role).value;
    forall p | p in s'.participants ensures p !in Events.OwnerRows(s', e) {
      if p != pid {
        assert p !in Events.OwnerRows(s, e);
      }
    }
  }

  /** A role change rewrites only `role`, so it keeps one row per (user, event). */
  lemma UpdateParticipantRolePreservesKey(s: Store, identity: Option<string>, pid: ParticipantId, role: GrantableRole)
    requires ParticipantKey(s)
    requires UpdateParticipantRole(s, identity, pid, role).Ok?
    ensures ParticipantKey(UpdateParticipantRole(s, identity, pid, role).value)
  {
  }

  /** Right after `createEvent` the caller reads back as the event's owner participant. */
  lemma {:induction false} CreateEventThenCurrentParticipant(s: Store, identity: Option<string>, args: Events.NewEvent, createdAt: string)
    requires Fresh(s)
    requires Events.CreateEvent(s, identity, args, createdAt).Ok?
    ensures var (s', e) := Events.CreateEvent(s, identity, args, createdAt).value;
      var r := GetCurrentUserAsParticipant(s', identity, e);
      && r.Ok? && r.value.Some?
      && r.value.value.1 == Participant(ResolveUser(s, identity).value, e, Owner, None)
  {
    var (s', e) := Events.CreateEvent(s, identity, args, createdAt).value;
    var u := ResolveUser(s, identity).value;
    SameUsersResolveAlike(s, s', identity);
    var p := SoleRow(s', u, e);
    assert ParticipantRows(s', u, e) == {p};
  }

  /** An event whose one row belongs to `u`: that row is `u`'s only row for it. */
  lemma SoleRow(s: Store, u: UserId, e: EventId) returns (p: ParticipantId)
    requires |ParticipantsOf(s, e)| == 1
    requires forall q :: q in ParticipantsOf(s, e) ==> s.participants[q].userId == u
    ensures ParticipantRows(s, u, e) == {p} && ParticipantsOf(s, e) == {p}
  {
    p :| p in ParticipantsOf(s, e);
    SingletonHasOne(ParticipantsOf(s, e));
    assert ParticipantsOf(s, e) == {p};
  }
}

=== FILE: schema.dfy ===
/**
  The Convex schema: the five tables, their literal-union enums, the indexes the
  handlers query through, and the store invariants those indexes presuppose.

  Documents are rows of finite maps keyed by their `_id`. Convex ids are never
  reused, so the store carries one counter `nextId` from which every insert draws.
*/
module Schema {
  import opened Wrappers

  type UserId = nat
  type EventId = nat
  type ParticipantId = nat
  type ItemId = nat
  type VoteId = nat

  // ---------------------------------------------------------------------------
  // Literal unions
  // ---------------------------------------------------------------------------

  datatype Status = Upcoming | Draft | Completed
  datatype Tone = Formal | Casual
  datatype Role = Owner | Editor | Viewer
  datatype ItemType = Presentation | Discussion | Break | Activity

  /** The roles `addParticipant` and `updateParticipantRole` accept as arguments. */
  type GrantableRole = r: Role | r != Owner witness Editor

  function StatusName(st: Status): string {
    match st
    case Upcoming => "upcoming"
    case Draft => "draft"
    case Completed => "completed"
  }

  /**
    The literal unions of convex/schema.ts, read as sets of strings: which
    strings name a status, tone, role or item type. Handler arguments arrive
    already typed, so no operation below calls these.
  */
  function ParseStatus(s: string): (r: Option<Status>)
    ensures forall st :: r == Some(st) <==> s == StatusName(st)
  {
    if s == "upcoming" then Some(Upcoming)
    else if s == "draft" then Some(Draft)
    else if s == "completed" then Some(Completed)
    else None
  }

  function ToneName(t: Tone): string {
    match t
    case Formal => "formal"
    case Casual => "casual"
  }

  function ParseTone(s: string): (r: Option<Tone>)
    ensures forall t :: r == Some(t) <==> s == ToneName(t)
  {
    if s == "formal" then Some(Formal)
    else if s == "casual" then Some(Casual)
    else None
  }

  function RoleName(role: Role): string {
    match role
    case Owner => "owner"
    case Editor => "editor"
    case Viewer => "viewer"
  }

  function ParseRole(s: string): (r: Option<Role>)
    ensures forall role :: r == Some(role) <==> s == RoleName(role)
  {
    if s == "owner" then Some(Owner)
    else if s == "editor" then Some(Editor)
    else if s == "viewer" then Some(Viewer)
    else None
  }

  function ItemTypeName(t: ItemType): string {
    match t
    case Presentation => "presentation"
    case Discussion => "discussion"
    case Break => "break"
    case Activity => "activity"
  }

  function ParseItemType(s: string): (r: Option<ItemType>)
    ensures forall t :: r == Some(t) <==> s == ItemTypeName(t)
  {
    if s == "presentation" then Some(Presentation)
    else if s == "discussion" then Some(Discussion)
    else if s == "break" then Some(Break)
    else if s == "activity" then Some(Activity)
    else None
  }

  // ---------------------------------------------------------------------------
  // Documents
  // ---------------------------------------------------------------------------

  datatype User = User(name: string, email: string, avatar: string, clerkId: string)

  /**
    An event document. `description` is not declared by the schema, but
    `updateEvent` accepts and writes it, so the model gives it a place.
  */
  datatype Event = Event(
    title: string,
    date: string,
    duration: int,
    status: Status,
    expectedParticipants: int,
    tone: Tone,
    goals: Option<string>,
    createdAt: string,
    ownerId: UserId,
    isPublic: bool,
    description: Option<string>)

  /**
    A participant document. `lastSeen` is not declared by the schema, but
    `updatePresence` writes it; `None` is a participant never heard from.
  */
  datatype Participant = Participant(userId: UserId, eventId: EventId, role: Role, lastSeen: Option<int>)

  datatype AgendaItem = AgendaItem(
    eventId: EventId,
    title: string,
    duration: int,
    startTime: string,
    endTime: Option<string>,
    description: Option<string>,
    votes: int,
    itemType: ItemType,
    order: int)

  datatype Vote = Vote(userId: UserId, agendaItemId: ItemId, eventId: EventId)

  datatype Store = Store(
    users: map<UserId, User>,
    events: map<EventId, Event>,
    participants: map<ParticipantId, Participant>,
    agendaItems: map<ItemId, AgendaItem>,
    votes: map<VoteId, Vote>,
    nextId: nat)

  /** What a handler throws. */
  datatype Error =
    | NotAuthenticated     // no identity on the request
    | UserNotFound         // identity has no user document
    | EventNotFound
    | ParticipantNotFound
    | NotAuthorized        // role or ownership check failed
    | NotUnique            // `.unique()` matched more than one document
    | MissingDocument      // `patch`/`delete` of an absent id, or `!` on a null `get`

  type Outcome<T> = Result<T, Error>

  // ---------------------------------------------------------------------------
  // Indexes
  // ---------------------------------------------------------------------------

  /** Index `by_clerk_id`. */
  function UsersWithClerkId(s: Store, clerkId: string): set<UserId> {
    set u | u in s.users && s.users[u].clerkId == clerkId
  }

  /** Index `by_email`. */
  function UsersWithEmail(s: Store, email: string): set<UserId> {
    set u | u in s.users && s.users[u].email == email
  }

  /** Index `by_user_and_event` on participants. */
  function ParticipantRows(s: Store, u: UserId, e: EventId): set<ParticipantId> {
    set p | p in s.participants && s.participants[p].userId == u && s.participants[p].eventId == e
  }

  /** Index `by_event_id` on participants. */
  function ParticipantsOf(s: Store, e: EventId): set<ParticipantId> {
    set p | p in s.participants && s.participants[p].eventId == e
  }

  /** Index `by_event_id` on agenda items. */
  function ItemsOf(s: Store, e: EventId): set<ItemId> {
    set i | i in s.agendaItems && s.agendaItems[i].eventId == e
  }

  /** Index `by_agenda_item_id` on votes. */
  function VotesFor(votes: map<VoteId, Vote>, item: ItemId): set<VoteId> {
    set v | v in votes && votes[v].agendaItemId == item
  }

  /** Index `by_user_and_agenda_item` on votes. */
  function VoteRows(s: Store, u: UserId, item: ItemId): set<VoteId> {
    set v | v in s.votes && s.votes[v].userId == u && s.votes[v].agendaItemId == item
  }

  predicate HasVoted(s: Store, u: UserId, item: ItemId) {
    VoteRows(s, u, item) != {}
  }

  lemma SingletonHasOne(ks: set<nat>)
    requires |ks| == 1
    ensures forall a, b :: a in ks && b in ks ==> a == b
  {
    var x :| x in ks;
    assert |ks - {x}| == 0;
    assert ks == {x};
  }

  /** `.unique()` over the ids an index lookup matched. */
  function Unique(ks: set<nat>): (r: Outcome<Option<nat>>)
    ensures r == Ok(None) <==> ks == {}
    ensures r.Ok? && r.value.Some? ==> ks == {r.value.value}
    ensures r == Err(NotUnique) <==> |ks| > 1
    ensures r.Err? ==> r.error == NotUnique
  {
    if ks == {} then Ok(None)
    else if |ks| == 1 then
      SingletonHasOne(ks);
      var k :| k in ks; Ok(Some(k))
    else Err(NotUnique)
  }

  // ---------------------------------------------------------------------------
  // Store invariants
  // ---------------------------------------------------------------------------

  /**
    Every id in use, as a document's key or as a reference inside a document,
    was drawn from the counter, so `nextId` names nothing yet.
  */
  predicate Fresh(s: Store) {
    && (forall k :: k in s.users ==> k < s.nextId)
    && (forall k :: k in s.events ==> k < s.nextId && s.events[k].ownerId < s.nextId)
    && (forall k :: k in s.participants ==>
          k < s.nextId && s.participants[k].userId < s.nextId && s.participants[k].eventId < s.nextId)
    && (forall k :: k in s.agendaItems ==> k < s.nextId && s.agendaItems[k].eventId < s.nextId)
    && (forall k :: k in s.votes ==>
          && k < s.nextId && s.votes[k].userId < s.nextId
          && s.votes[k].agendaItemId < s.nextId && s.votes[k].eventId < s.nextId)
  }

  /** `by_clerk_id` is queried with `.unique()`: clerkId is a key of users. */
  predicate ClerkIdKey(s: Store) {
    forall u, w :: u in s.users && w in s.users && s.users[u].clerkId == s.users[w].clerkId ==> u == w
  }

  /** `by_user_and_event` is queried with `.unique()`: one row per (user, event). */
  predicate ParticipantKey(s: Store) {
    forall p, q ::
      (&& p in s.participants && q in s.participants
       && s.participants[p].userId == s.participants[q].userId
       && s.participants[p].eventId == s.participants[q].eventId) ==> p == q
  }

  /** `by_user_and_agenda_item` is queried with `.unique()`: one vote per (user, item). */
  predicate VoteKey(s: Store) {
    forall v, w ::
      (&& v in s.votes && w in s.votes
       && s.votes[v].userId == s.votes[w].userId
       && s.votes[v].agendaItemId == s.votes[w].agendaItemId) ==> v == w
  }

  /** Every item's `votes` field counts the vote rows that reference it. */
  predicate VoteLedger(s: Store) {
    forall i :: i in s.agendaItems ==> s.agendaItems[i].votes == |VotesFor(s.votes, i)|
  }

  /** Under `ClerkIdKey`, the `by_clerk_id` lookup never matches two users. */
  lemma ClerkIdKeyMeansUnique(s: Store, clerkId: string)
    requires ClerkIdKey(s)
    ensures |UsersWithClerkId(s, clerkId)| <= 1
  {
    var ks := UsersWithClerkId(s, clerkId);
    if ks != {} {
      var u :| u in ks;
      assert ks == {u};
    }
  }

  /** Under `VoteKey`, the `by_user_and_agenda_item` lookup never matches two votes. */
  lemma VoteKeyMeansUnique(s: Store, u: UserId, item: ItemId)
    requires VoteKey(s)
    ensures |VoteRows(s, u, item)| <= 1
  {
    var ks := VoteRows(s, u, item);
    if ks != {} {
      var v :| v in ks;
      assert ks == {v};
    }
  }

  /** Under `ParticipantKey`, the `by_user_and_event` lookup never matches two rows. */
  lemma ParticipantKeyMeansUnique(s: Store, u: UserId, e: EventId)
    requires ParticipantKey(s)
    ensures |ParticipantRows(s, u, e)| <= 1
  {
    var ks := ParticipantRows(s, u, e);
    if ks != {} {
      var p :| p in ks;
      assert ks == {p};
    }
  }
}

=== FILE: users.dfy ===
/**
  User documents (convex/users.ts): the sign-in upsert keyed by the identity
  provider's `clerkId`, and the lookup by email.
*/
module Users {
  import opened Wrappers
  import opened Schema
  import opened Access

  /**
    `createUser`: an upsert on `by_clerk_id`. An existing user gets the new
    name, email and avatar (`picture`); an unseen `clerkId` gets a new document.
    Only an ambiguous lookup throws.
  */
  function CreateUser(s: Store, name: string, email: string, picture: string, clerkId: string): (r: Outcome<(Store, UserId)>)
    ensures r.Err? <==> |UsersWithClerkId(s, clerkId)| > 1
    ensures r.Err? ==> r.error == NotUnique
    ensures r.Ok? ==>
      var (s', u) := r.value;
      && u in s'.users && s'.users[u] == User(name, email, picture, clerkId)
      && s'.users.Keys == s.users.Keys + {u}
      && (forall w :: w in s.users && w != u ==> s'.users[w] == s.users[w])
      && s'.(users := s.users, nextId := s.nextId) == s
    ensures r.Ok? && UsersWithClerkId(s, clerkId) != {} ==> UsersWithClerkId(s, clerkId) == {r.value.1} && r.value.0.nextId == s.nextId
    ensures r.Ok? && UsersWithClerkId(s, clerkId) == {} ==> r.value.1 == s.nextId && r.value.0.nextId == s.nextId + 1
  {
    var found :- Unique(UsersWithClerkId(s, clerkId));
    match found
    case Some(u) =>
      Ok((s.(users := s.users[u := s.users[u].(name := name, email := email, avatar := picture)]), u))
    case None =>
      Ok((s.(users := s.users[s.nextId := User(name, email, picture, clerkId)], nextId := s.nextId + 1), s.nextId))
  }

  /** After a sign-in the `clerkId` names exactly the returned user. */
  lemma {:induction false} CreateUserMakesSoleUser(s: Store, name: string, email: string, picture: string, clerkId: string)
    requires s.nextId !in s.users
    requires CreateUser(s, name, email, picture, clerkId).Ok?
    ensures var (s', u) := CreateUser(s, name, email, picture, clerkId).value;
      UsersWithClerkId(s', clerkId) == {u}
  {
    var (s', u) := CreateUser(s, name, email, picture, clerkId).value;
    forall w | w in UsersWithClerkId(s', clerkId) ensures w == u {
      assert w != u ==> w in UsersWithClerkId(s, clerkId);
    }
  }

  /** The upsert keeps `clerkId` a key of the users table. */
  lemma {:induction false} CreateUserPreservesKey(s: Store, name: string, email: string, picture: string, clerkId: string)
    requires Fresh(s) && ClerkIdKey(s)
    requires CreateUser(s, name, email, picture, clerkId).Ok?
    ensures ClerkIdKey(CreateUser(s, name, email, picture, clerkId).value.0)
  {
    var (s', u) := CreateUser(s, name, email, picture, clerkId).value;
    CreateUserMakesSoleUser(s, name, email, picture, clerkId);
    forall a, b | a in s'.users && b in s'.users && s'.users[a].clerkId == s'.users[b].clerkId
      ensures a == b
    {
      if a != u && b != u {
        assert s.users[a].clerkId == s.users[b].clerkId;
      } else {
        assert a in UsersWithClerkId(s', clerkId) && b in UsersWithClerkId(s', clerkId);
      }
    }
  }

  /** A sign-in whose `clerkId` names exactly one user refreshes that user's profile. */
  lemma CreateUserRefreshes(s: Store, name: string, email: string, picture: string, clerkId: string, u: UserId)
    requires UsersWithClerkId(s, clerkId) == {u}
    ensures CreateUser(s, name, email, picture, clerkId)
      == Ok((s.(users := s.users[u := s.users[u].(name := name, email := email, avatar := picture)]), u))
  {
    assert Unique(UsersWithClerkId(s, clerkId)) == Ok(Some(u));
  }

  /** A repeated sign-in with the same profile changes nothing and returns the same user. */
  lemma {:induction false} CreateUserIdempotent(s: Store, name: string, email: string, picture: string, clerkId: string)
    requires s.nextId !in s.users
    requires CreateUser(s, name, email, picture, clerkId).Ok?
    ensures var (s1, u) := CreateUser(s, name, email, picture, clerkId).value;
      CreateUser(s1, name, email, picture, clerkId) == Ok((s1, u))
  {
    var r := CreateUser(s, name, email, picture, clerkId).value;
    var s1 := r.0;
    var u := r.1;
    CreateUserMakesSoleUser(s, name, email, picture, clerkId);
    CreateUserRefreshes(s1, name, email, picture, clerkId, u);
    assert s1.users[u] == User(name, email, picture, clerkId);
    assert s1.users[u := s1.users[u].(name := name, email := email, avatar := picture)] == s1.users;
  }

  /** After a sign-in the caller resolves to the user it returned. */
  lemma CreateUserThenResolve(s: Store, name: string, email: string, picture: string, clerkId: string)
    requires s.nextId !in s.users
    requires CreateUser(s, name, email, picture, clerkId).Ok?
    ensures var (s', u) := CreateUser(s, name, email, picture, clerkId).value;
      ResolveUser(s', Some(clerkId)) == Ok(u)
  {
    CreateUserMakesSoleUser(s, name, email, picture, clerkId);
  }

  /**
    `findUserByEmail`: the `by_email` lookup with `.unique()`. Email is not a
    key of the table, so a shared address makes the query throw.
  */
  function FindUserByEmail(s: Store, email: string): (r: Outcome<Option<(UserId, User)>>)
    ensures r == Ok(None) <==> UsersWithEmail(s, email) == {}
    ensures r.Err? <==> |UsersWithEmail(s, email)| > 1
    ensures r.Err? ==> r.error == NotUnique
    ensures r.Ok? && r.value.Some? ==>
      UsersWithEmail(s, email) == {r.value.value.0} && s.users[r.value.value.0] == r.value.value.1
  {
    var found :- Unique(UsersWithEmail(s, email));
    if found.None? then Ok(None) else Ok(Some((found.value, s.users[found.value])))
  }

  /** Two accounts that share an email (two sign-in methods, say) make the lookup throw. */
  lemma SharedEmailBreaksLookup(s: Store, email: string, a: UserId, b: UserId)
    requires a in s.users && b in s.users && a != b
    requires s.users[a].email == email && s.users[b].email == email
    ensures FindUserByEmail(s, email) == Err(NotUnique)
  {
    assert {a, b} <= UsersWithEmail(s, email);
    assert |{a, b}| == 2;
  }

  /** A sign-in with an email already held by another account puts the table in that state. */
  lemma {:induction false} SignInCanShareEmail(s: Store, name: string, email: string, picture: string, clerkId: string, other: UserId)
    requires Fresh(s)
    requires other in s.users && s.users[other].email == email && s.users[other].clerkId != clerkId
    requires CreateUser(s, name, email, picture, clerkId).Ok?
    ensures FindUserByEmail(CreateUser(s, name, email, picture, clerkId).value.0, email) == Err(NotUnique)
  {
    var (s', u) := CreateUser(s, name, email, picture, clerkId).value;
    assert u != other by {
      if UsersWithClerkId(s, clerkId) == {} {
        assert s.nextId !in s.users;
      } else {
        assert u in UsersWithClerkId(s, clerkId);
      }
    }
    SharedEmailBreaksLookup(s', email, u, other);
  }
}

=== FILE: votes.dfy ===
/**
  The vote ledger: `voteOnAgendaItem` toggles the caller's vote row on an item
  and moves the item's `votes` counter with it. The copy in convex/events.ts is
  textually the same handler.
*/
module Votes {
  import opened Wrappers
  import opened Schema
  import opened Access

  /**
    `voteOnAgendaItem`. There is no participant check: any caller with a user
    document may vote. The new row records the `eventId` argument, not the
    item's event. The `!` on the re-read item throws when the item is absent.
  */
  function VoteOnAgendaItem(s: Store, identity: Option<string>, itemId: ItemId, eventId: EventId): (r: Outcome<Store>)
    ensures identity.None? ==> r == Err(NotAuthenticated)
    ensures r.Ok? <==>
      && ResolveUser(s, identity).Ok?
      && |VoteRows(s, ResolveUser(s, identity).value, itemId)| <= 1
      && itemId in s.agendaItems
    ensures (&& ResolveUser(s, identity).Ok?
             && |VoteRows(s, ResolveUser(s, identity).value, itemId)| <= 1
             && itemId !in s.agendaItems) ==> r == Err(MissingDocument)
    ensures r.Ok? ==>
      var u := ResolveUser(s, identity).value;
      && (HasVoted(r.value, u, itemId) <==> !HasVoted(s, u, itemId))
      && r.value.agendaItems.Keys == s.agendaItems.Keys
      && r.value.agendaItems[itemId] == s.agendaItems[itemId].(votes :=
           s.agendaItems[itemId].votes + (if HasVoted(s, u, itemId) then -1 else 1))
      && (forall i :: i in s.agendaItems && i != itemId ==> r.value.agendaItems[i] == s.agendaItems[i])
    ensures r.Ok? ==>
      var u := ResolveUser(s, identity).value;
      HasVoted(s, u, itemId) ==>
        && r.value.votes.Keys == s.votes.Keys - VoteRows(s, u, itemId)
        && r.value.nextId == s.nextId
    ensures r.Ok? ==>
      var u := ResolveUser(s, identity).value;
      !HasVoted(s, u, itemId) ==>
        && r.value.votes.Keys == s.votes.Keys + {s.nextId}
        && r.value.votes[s.nextId] == Vote(u, itemId, eventId)
        && r.value.nextId == s.nextId + 1
    ensures r.Ok? && Fresh(s) ==>
      var u := ResolveUser(s, identity).value;
      forall v :: v in s.votes && (s.votes[v].userId != u || s.votes[v].agendaItemId != itemId) ==>
        v in r.value.votes && r.value.votes[v] == s.votes[v]
    ensures r.Ok? ==> r.value.(agendaItems := s.agendaItems, votes := s.votes, nextId := s.nextId) == s
  {
    var u :- ResolveUser(s, identity);
    var existing :- Unique(VoteRows(s, u, itemId));
    if itemId !in s.agendaItems then Err(MissingDocument)
    else
      var item := s.agendaItems[itemId];
      match existing
      case Some(v) =>
        assert VoteRows(s.(votes := s.votes - {v}), u, itemId) == {};
        Ok(s.(votes := s.votes - {v},
              agendaItems := s.agendaItems[itemId := item.(votes := item.votes - 1)]))
      case None =>
        var s' := s.(votes := s.votes[s.nextId := Vote(u, itemId, eventId)],
                     agendaItems := s.agendaItems[itemId := item.(votes := item.votes + 1)],
                     nextId := s.nextId + 1);
        assert s.nextId in VoteRows(s', u, itemId);
        Ok(s')
  }

  /** Every vote row points at an existing item (votes are cast on, and deleted with, items). */
  predicate VotesReferenceItems(s: Store) {
    forall v :: v in s.votes ==> s.votes[v].agendaItemId in s.agendaItems
  }

  /** Adding a fresh vote row on `item` adds it to that item's rows and no other's. */
  lemma VotesForInsert(votes: map<VoteId, Vote>, id: VoteId, row: Vote, item: ItemId)
    requires id !in votes
    ensures VotesFor(votes[id := row], item) ==
      if row.agendaItemId == item then VotesFor(votes, item) + {id} else VotesFor(votes, item)
  {
  }

  /** Removing a set of vote rows removes exactly them from each item's rows. */
  lemma VotesForRemove(votes: map<VoteId, Vote>, gone: set<VoteId>, item: ItemId)
    ensures VotesFor(votes - gone, item) == VotesFor(votes, item) - gone
  {
  }

  /** A toggle keeps every item's counter equal to its number of vote rows. */
  lemma {:induction false} VotePreservesLedger(s: Store, identity: Option<string>, itemId: ItemId, eventId: EventId)
    requires Fresh(s) && VoteLedger(s)
    requires VoteOnAgendaItem(s, identity, itemId, eventId).Ok?
    ensures VoteLedger(VoteOnAgendaItem(s, identity, itemId, eventId).value)
  {
    var s' := VoteOnAgendaItem(s, identity, itemId, eventId).value;
    var u := ResolveUser(s, identity).value;
    if HasVoted(s, u, itemId) {
      var v :| v in VoteRows(s, u, itemId);
      assert VoteRows(s, u, itemId) == {v};
      assert s'.votes == s.votes - {v};
      forall i | i in s'.agendaItems ensures s'.agendaItems[i].votes == |VotesFor(s'.votes, i)| {
        VotesForRemove(s.votes, {v}, i);
        if i == itemId {
          assert v in VotesFor(s.votes, i);
        } else {
          assert v !in VotesFor(s.votes, i);
        }
      }
    } else {
      assert s.nextId !in s.votes;
      assert s'.votes == s.votes[s.nextId := Vote(u, itemId, eventId)];
      forall i | i in s'.agendaItems ensures s'.agendaItems[i].votes == |VotesFor(s'.votes, i)| {
        VotesForInsert(s.votes, s.nextId, Vote(u, itemId, eventId), i);
      }
    }
  }

  /** A toggle draws at most one id and stores only issued ids when its `eventId` was issued. */
  lemma VotePreservesFresh(s: Store, identity: Option<string>, itemId: ItemId, eventId: EventId)
    requires Fresh(s) && eventId < s.nextId
    requires VoteOnAgendaItem(s, identity, itemId, eventId).Ok?
    ensures Fresh(VoteOnAgendaItem(s, identity, itemId, eventId).value)
  {
  }

  /** A toggle never creates a second vote row for one (user, item) pair. */
  lemma VotePreservesVoteKey(s: Store, identity: Option<string>, itemId: ItemId, eventId: EventId)
    requires Fresh(s) && VoteKey(s)
    requires VoteOnAgendaItem(s, identity, itemId, eventId).Ok?
    ensures VoteKey(VoteOnAgendaItem(s, identity, itemId, eventId).value)
  {
    var s' := VoteOnAgendaItem(s, identity, itemId, eventId).value;
    var u := ResolveUser(s, identity).value;
    if !HasVoted(s, u, itemId) {
      assert s'.votes == s.votes[s.nextId := Vote(u, itemId, eventId)];
      assert forall w :: w in s.votes ==> w !in VoteRows(s, u, itemId);
      assert s.nextId !in s.votes;
    }
  }

  /** A toggle keeps every vote row pointing at an existing item. */
  lemma VotePreservesReferences(s: Store, identity: Option<string>, itemId: ItemId, eventId: EventId)
    requires VotesReferenceItems(s)
    requires VoteOnAgendaItem(s, identity, itemId, eventId).Ok?
    ensures VotesReferenceItems(VoteOnAgendaItem(s, identity, itemId, eventId).value)
  {
  }

  /** Toggling off and then on again: the counter and the voted state come back. */
  lemma {:induction false} VoteTwiceFromVoted(s: Store, identity: Option<string>, itemId: ItemId, eventId: EventId)
    requires VoteOnAgendaItem(s, identity, itemId, eventId).Ok?
    requires HasVoted(s, ResolveUser(s, identity).value, itemId)
    ensures var s1 := VoteOnAgendaItem(s, identity, itemId, eventId).value;
      && VoteOnAgendaItem(s1, identity, itemId, eventId).Ok?
      && VoteOnAgendaItem(s1, identity, itemId, eventId).value.agendaItems == s.agendaItems
      && HasVoted(VoteOnAgendaItem(s1, identity, itemId, eventId).value, ResolveUser(s, identity).value, itemId)
  {
    var s1 := VoteOnAgendaItem(s, identity, itemId, eventId).value;
    var u := ResolveUser(s, identity).value;
    assert s1.users == s.users;
    assert ResolveUser(s1, identity) == ResolveUser(s, identity);
    assert VoteRows(s1, u, itemId) == {};
  }

  /** A toggle from the unvoted state inserts the caller's row under `nextId` and bumps the counter. */
  lemma VoteOnStep(s: Store, identity: Option<string>, itemId: ItemId, eventId: EventId)
    requires VoteOnAgendaItem(s, identity, itemId, eventId).Ok?
    requires !HasVoted(s, ResolveUser(s, identity).value, itemId)
    ensures var item := s.agendaItems[itemId];
      VoteOnAgendaItem(s, identity, itemId, eventId).value
        == s.(votes := s.votes[s.nextId := Vote(ResolveUser(s, identity).value, itemId, eventId)],
              agendaItems := s.agendaItems[itemId := item.(votes := item.votes + 1)],
              nextId := s.nextId + 1)
  {
  }

  /** A toggle from the voted state deletes the caller's one row and lowers the counter. */
  lemma VoteOffStep(s: Store, identity: Option<string>, itemId: ItemId, eventId: EventId, v: VoteId)
    requires VoteOnAgendaItem(s, identity, itemId, eventId).Ok?
    requires VoteRows(s, ResolveUser(s, identity).value, itemId) == {v}
    ensures var item := s.agendaItems[itemId];
      VoteOnAgendaItem(s, identity, itemId, eventId).value
        == s.(votes := s.votes - {v}, agendaItems := s.agendaItems[itemId := item.(votes := item.votes - 1)])
  {
  }

  /** Toggling on and then off again: the store comes back with one id spent. */
  lemma {:induction false} VoteTwiceFromUnvoted(s: Store, identity: Option<string>, itemId: ItemId, eventId: EventId)
    requires s.nextId !in s.votes
    requires VoteOnAgendaItem(s, identity, itemId, eventId).Ok?
    requires !HasVoted(s, ResolveUser(s, identity).value, itemId)
    ensures var s1 := VoteOnAgendaItem(s, identity, itemId, eventId).value;
      && VoteOnAgendaItem(s1, identity, itemId, eventId).Ok?
      && VoteOnAgendaItem(s1, identity, itemId, eventId).value == s.(nextId := s.nextId + 1)
  {
    var u := ResolveUser(s, identity).value;
    var n := s.nextId;
    VoteOnStep(s, identity, itemId, eventId);
    var s1 := VoteOnAgendaItem(s, identity, itemId, eventId).value;
    SameUsersResolveAlike(s, s1, identity);
    assert VoteRows(s1, u, itemId) == {n};
    VoteOffStep(s1, identity, itemId, eventId, n);
    assert s1.votes - {n} == s.votes;
    assert s1.agendaItems[itemId := s1.agendaItems[itemId].(votes := s1.agendaItems[itemId].votes - 1)] == s.agendaItems;
  }

  /**
    Voting twice undoes the first vote on the items: the counter and the
    caller's voted state return to what they were. Starting without a vote,
    the whole store returns, except that one id has been consumed.
  */
  lemma VoteTwiceRestores(s: Store, identity: Option<string>, itemId: ItemId, eventId: EventId)
    requires Fresh(s)
    requires VoteOnAgendaItem(s, identity, itemId, eventId).Ok?
    ensures var s1 := VoteOnAgendaItem(s, identity, itemId, eventId).value;
      VoteOnAgendaItem(s1, identity, itemId, eventId).Ok?
    ensures var s1 := VoteOnAgendaItem(s, identity, itemId, eventId).value;
      var s2 := VoteOnAgendaItem(s1, identity, itemId, eventId).value;
      var u := ResolveUser(s, identity).value;
      && s2.agendaItems == s.agendaItems
      && (HasVoted(s2, u, itemId) <==> HasVoted(s, u, itemId))
      && (!HasVoted(s, u, itemId) ==> s2 == s.(nextId := s.nextId + 1))
  {
    if HasVoted(s, ResolveUser(s, identity).value, itemId) {
      VoteTwiceFromVoted(s, identity, itemId, eventId);
    } else {
      VoteTwiceFromUnvoted(s, identity, itemId, eventId);
    }
  }

  /** The missing participant check: a caller with no role in the item's event can vote. */
  lemma NonParticipantCanVote(s: Store, subject: string, u: UserId, itemId: ItemId, eventId: EventId)
    requires ClerkIdKey(s) && VoteKey(s)
    requires u in s.users && s.users[u].clerkId == subject
    requires itemId in s.agendaItems
    requires ParticipantRows(s, u, s.agendaItems[itemId].eventId) == {}
    ensures VoteOnAgendaItem(s, Some(subject), itemId, eventId).Ok?
  {
    ResolveUserUnderKey(s, subject, u);
    VoteKeyMeansUnique(s, u, itemId);
  }

  /** The new vote row records the `eventId` argument even when the item belongs elsewhere. */
  lemma VoteRecordsArgumentEvent(s: Store, identity: Option<string>, itemId: ItemId, eventId: EventId)
    requires VoteOnAgendaItem(s, identity, itemId, eventId).Ok?
    requires !HasVoted(s, ResolveUser(s, identity).value, itemId)
    ensures var s' := VoteOnAgendaItem(s, identity, itemId, eventId).value;
      s.nextId in s'.votes && s'.votes[s.nextId] == Vote(ResolveUser(s, identity).value, itemId, eventId)
  {
  }

  /**
    A run of toggles on one item, one per caller in turn; the run stops at the
    first toggle that throws.
  */
  function VoteAll(s: Store, callers: seq<Option<string>>, itemId: ItemId, eventId: EventId): (r: Outcome<Store>)
    decreases |callers|
  {
    if callers == [] then Ok(s)
    else
      var s1 :- VoteOnAgendaItem(s, callers[0], itemId, eventId);
      VoteAll(s1, callers[1..], itemId, eventId)
  }

  /**
    However many callers toggle, and in whatever order, every item's counter
    still equals its number of live vote rows.
  */
  lemma {:induction false} VoteAllPreservesLedger(s: Store, callers: seq<Option<string>>, itemId: ItemId, eventId: EventId)
    requires Fresh(s) && VoteLedger(s) && eventId < s.nextId
    requires VoteAll(s, callers, itemId, eventId).Ok?
    ensures VoteLedger(VoteAll(s, callers, itemId, eventId).value)
    decreases |callers|
  {
    if callers != [] {
      VotePreservesLedger(s, callers[0], itemId, eventId);
      VotePreservesFresh(s, callers[0], itemId, eventId);
      var s1 := VoteOnAgendaItem(s, callers[0], itemId, eventId).value;
      VoteAllPreservesLedger(s1, callers[1..], itemId, eventId);
    }
  }
}

=== FILE: wrappers.dfy ===
/** Failure-compatible wrappers shared by every module of the model. */
module Wrappers {

  /** An optional value: the source's `v.optional(...)` fields and `null` results. */
  datatype Option<+T> = None | Some(value: T)

  /** The outcome of a Convex handler: a value, or the error it throws. */
  datatype Result<+T, +E> = Ok(value: T) | Err(error: E) {

    predicate IsFailure() {
      Err?
    }

    function PropagateFailure<U>(): Result<U, E>
      requires Err?
    {
      Err(error)
    }

    function Extract(): T
      requires Ok?
    {
      value
    }
  }
}
